=== FILE: README.md ===
# PA-BGM-System players and schedule editors, modelled in Dafny

PA-BGM-System plays background music or a live radio stream in shops. At
scheduled times of day it interrupts the music for recorded announcements.
This project models the client-side logic that decides what happens:

- **Local MP3 player.** Each second it compares the clock text "HH:MM:SS"
  with the profile's schedule and fires the first matching entry. This only
  happens when the profile is present and neither blocked nor alarm-blocked.
  The player then crossfades: the music fades out to silence, the
  announcement is fetched and played, and the music fades back in. The page
  also shows the days left on the subscription plan. It shows the schedule
  with the profile prefix stripped from track names. It bolds an entry when
  its time, placed on today's date, lies between now and one minute from
  now. The playlist wraps from the last track to the
  first.
- **Online radio player.** It uses the same tick and crossfade, but has no
  profile gate, and its fade-out always starts from full volume.
- **Schedule editors.** The profile page and the online radio player
  append entries, which updates the list at once and then saves it. The
  profile and upload pages delete entries by position, and adopt the saved
  list only when the server acknowledges it. Uploaded tracks are shown,
  offered and deleted by the name after their first hyphen.
- **History page.** It folds the action log into one card per stream id, and
  lists each card's actions newest first.

The shared helpers come first; the last five modules follow the source's
components, one per file:

- `Common`: option, reply and request types.
- `Text`: JavaScript `split`/`join`, the after-first-hyphen name, and string
  `replace`.
- `Subscription`: plans and days left.
- `Schedule`: append, delete by index, and first match.
- `Clock`: clock text and the "next to play" window.
- `Fade`: volume ramps.
- `Playback`: the crossfade state machine.
- `Editing`: the editors' add and delete handlers.
- One module per component: `LocalPlayer`, `RadioPlayer`, `RadioProfile`,
  `UploadTrack` and `History`.

Modelling choices:

- **Volume.** Volume is an integer number of hundredths: the local player's
  slider moves in steps of 0.01. So the fades' step of 0.1 is 10 and full
  volume is 100.
- **Clock and time.** Times of day are whole seconds since midnight. Instants
  (creation dates, history timestamps, "now") are milliseconds since the
  epoch.
- **Inputs.** Clock readings, the server's replies (`Reply`), fetched data
  and audio-element callbacks are all inputs. The timers' firings are
  `FadeTimer` events of the machine.

## Model

| member | source | states |
|---|---|---|
| `Subscription.PlanDays` | client/src/components/LocalPlayer.jsx:210-229 | each of the five plan labels maps to its day count (1, 30, 90, 180, 365); the count is positive exactly for the offered options, and every other string gets 0 |
| `Subscription.PlanOptionsAreLabels` | client/src/components/EditProfile.jsx:100-104 | the options the profile forms offer are exactly the labels of the five plans, one per plan |
| `Subscription.DifferenceInDays` | client/src/components/LocalPlayer.jsx:231 | the whole days between two instants, truncated toward zero, bracketed by the millisecond difference in both directions |
| `Subscription.DaysLeft` | client/src/components/LocalPlayer.jsx:205-233 | the plan's days minus the figure is the number of whole days elapsed since creation; before creation the figure exceeds the plan's days by the whole days still to go, so it is exactly the plan's days for less than a day |
| `Subscription.DaysLeftIgnoresExpiration` | client/src/components/LocalPlayer.jsx:205-208 | the figure does not depend on the expiration date passed in |
| `Subscription.DaysLeftNonIncreasing` | client/src/components/LocalPlayer.jsx:231-232 | the figure never increases as time advances |
| `Subscription.DaysLeftOverPlan` | client/src/components/LocalPlayer.jsx:205-233 | the full plan is left at creation, 0 exactly one plan length later, and -1 a day after that |
| `Text.Split` | client/src/components/RadioProfile.jsx:71 | `split('-')` yields at least one piece and no piece contains the separator |
| `Text.JoinSplit` | client/src/components/RadioProfile.jsx:71 | joining the pieces of a split with the same separator gives back the original string |
| `Text.TrackName` | client/src/components/RadioProfile.jsx:71 | `split('-').slice(1).join('-')` is the text after the first hyphen: later hyphens are kept, and a name without a hyphen gives "" |
| `Text.TrackNameOfStored` | client/src/components/RadioProfile.jsx:71 | for a stored name "{prefix}-{name}" whose prefix has no hyphen, the track name is exactly `name` |
| `Text.ReplaceFirst` | client/src/components/LocalPlayer.jsx:309 | string `replace` with a string pattern rewrites only the leftmost occurrence and leaves a string without one unchanged |
| `Text.StripStored` | client/src/components/LocalPlayer.jsx:309 | stripping "{id}-" from a stored "{id}-{name}" gives `name`, the same as the after-first-hyphen name when the id has no hyphen |
| `Text.StripForeign` | client/src/components/LocalPlayer.jsx:309 | a track without the profile's prefix is shown unchanged |
| `Schedule.Append` | client/src/components/RadioProfile.jsx:84-85 | the new entry is last, the length grows by one, and earlier entries are unchanged |
| `Schedule.FilterOutIndex` | client/src/components/RadioProfile.jsx:58 | the filter keeps every element except position `index`, in order; an index outside the list keeps all |
| `Schedule.RemoveAt` | client/src/components/UploadTrack.jsx:42 | for a valid index exactly that position is removed: one shorter, earlier entries in place, later ones shifted by one; an out-of-range index returns the list unchanged |
| `Schedule.RemoveAppended` | client/src/components/RadioProfile.jsx:57-58 | deleting the entry just appended restores the schedule |
| `Schedule.RemoveAtIsPermutationMinusOne` | client/src/components/RadioProfile.jsx:58 | the removed entry plus the remaining ones are exactly the original entries |
| `Schedule.FirstMatch` | client/src/components/LocalPlayer.jsx:32 | `find` returns the first position whose time equals the clock text, and none exactly when no entry matches |
| `Schedule.DueTrack` | client/src/components/LocalPlayer.jsx:32-35 | a tick has a track to fire iff some entry's time equals the clock text, and it is the first such entry's track |
| `Schedule.DueTrackAfterAppend` | client/src/components/RadioPlayer.jsx:98-101 | appending never changes an existing match and adds one only when the new entry's time matches |
| `Fade.FadeOut` | client/src/components/LocalPlayer.jsx:144-156 | the fade-out writes at least once, its last write is exactly 0, and that 0 comes only once the level has dropped to 0.1 or below |
| `Fade.FadeOutSteps` | client/src/components/LocalPlayer.jsx:144-156 | every fade-out write before the last is the start minus one more step of 0.1, and still above 0 |
| `Fade.FadeOutDescends` | client/src/components/LocalPlayer.jsx:144-156 | the fade-out's writes never exceed the start, strictly decrease, and the first is below a non-zero start |
| `Fade.FadeInFrom` | client/src/components/LocalPlayer.jsx:158-169 | the fade-in writes at least once and its last write is exactly full volume |
| `Fade.FadeInSteps` | client/src/components/LocalPlayer.jsx:158-169 | every fade-in write before the last is the start plus one more step of 0.1, and still below full volume |
| `Fade.FadeInRises` | client/src/components/LocalPlayer.jsx:158-169 | the fade-in's writes never go below the start, strictly increase, and the first is above a start below full volume |
| `Fade.FadeIn` | client/src/components/RadioPlayer.jsx:85-96 | from silence the fade-in writes 0.1, 0.2, ... 0.9 and then 1.0, ten writes in all |
| `Playback.Step` | client/src/components/LocalPlayer.jsx:119-169 | every event keeps the machine's invariant; each volume change is written; the announcement plays only while the live element is at 0; live playback resumes only when the announcement ends, starting the fade-in; a trigger is acted on only while live and starts the fade-out from the player's start level |
| `Playback.RunPreservesValid` | client/src/components/LocalPlayer.jsx:119-169 | every state reached by any event sequence satisfies the invariant |
| `Playback.WritesAt` | client/src/components/LocalPlayer.jsx:144-169 | the i-th write effect sets the volume to the i-th value of the ramp |
| `Playback.FadeOutEffectsAreRamp` | client/src/components/LocalPlayer.jsx:144-156 | the fade-out's effects are its ramp's volume writes followed by exactly one callback request |
| `Playback.FadeOutRun` | client/src/components/LocalPlayer.jsx:144-156 | the fade-out's timer firings write the ramp, reach 0, and only then run the callback, which moves to fetching or loading |
| `Playback.FadeInEffectsAreRamp` | client/src/components/RadioPlayer.jsx:85-96 | the fade-in's effects are exactly the writes of its ramp |
| `Playback.FadeInRun` | client/src/components/RadioPlayer.jsx:85-96 | the fade-in's timer firings write the ramp and end live at full volume |
| `Playback.AnnouncementRun` | client/src/components/LocalPlayer.jsx:122-136 | after the fade-out's callback, a successful fetch (local only), the element becoming playable, and the announcement's end lead to the fade-in with live playback resumed |
| `Playback.AnnouncementCycle` | client/src/components/RadioPlayer.jsx:53-69 | a successful announcement takes either player from live at any volume to live at full volume: fade-out writes, callback, announcement, fade-in writes, in that order |
| `Playback.LiveIsQuietWithoutTrigger` | client/src/components/LocalPlayer.jsx:29-35 | while live, no event other than a trigger changes anything or has any effect |
| `Playback.FetchFailureLeavesLiveSilent` | client/src/components/LocalPlayer.jsx:138-140 | a failed blob request leaves the live element at 0: no fade-in, no resumed playback, until a new trigger |
| `Playback.AnnouncementFailureLeavesLiveSilent` | client/src/components/LocalPlayer.jsx:128-132 | when the announcement cannot load or play, the live element stays at 0 without fade-in or resumed playback |
| `Playback.FirstFadeWrite` | client/src/components/RadioPlayer.jsx:71-76 | the radio player's first fade write is always 0.9 whatever the live volume; the local player's never exceeds the volume it found |
| `Clock.Format` | client/src/components/LocalPlayer.jsx:30 | the tick's clock text is eight characters, two-digit fields separated by colons |
| `Clock.ToNumber` | client/src/components/LocalPlayer.jsx:239 | `Number` of a piece is NaN exactly when it has a non-digit character |
| `Clock.ParseClock` | client/src/components/LocalPlayer.jsx:239-240 | a scheduled time gives a second of the day only when it splits into at least three pieces |
| `Clock.ParseFormat` | client/src/components/LocalPlayer.jsx:30 | the clock text of any second parses back to that second |
| `Clock.FormatInjective` | client/src/components/LocalPlayer.jsx:30-32 | distinct seconds of the day have distinct clock texts |
| `Clock.NextToPlayIffFiresSoon` | client/src/components/LocalPlayer.jsx:236-243 | the corrected highlight holds exactly when a tick within the next 60 seconds shows the entry's time |
| `Clock.AsWrittenAgreesBeforeMidnight` | client/src/components/LocalPlayer.jsx:236-243 | more than a minute before midnight the written check and the corrected one agree on canonical times |
| `Clock.AsWrittenImpliesIntended` | client/src/components/LocalPlayer.jsx:236-243 | every canonical entry the written check highlights, the corrected one highlights too |
| `Clock.MidnightEntryNotHighlighted` | client/src/components/LocalPlayer.jsx:236-243 | at 23:59:30 the entry for 00:00:10 fires 40 seconds later, yet the written check does not highlight it |
| `Editing.AddEntry` | client/src/components/RadioProfile.jsx:83-97 | the form's entry is appended and posted as the whole list, the local list is replaced at once, and the form is cleared |
| `Editing.DeleteEntry` | client/src/components/RadioProfile.jsx:57-68 | the list without the position is posted; it is adopted with the success message only on acknowledgement, and on failure the list is kept with the failure message |
| `Editing.OverlappingDeletesKeepFirst` | client/src/components/RadioProfile.jsx:57-68 | a second delete clicked before the first reply posts a list that still holds the entry the first click deleted |
| `Editing.DeleteUndoesAdd` | client/src/components/RadioProfile.jsx:57-97 | an acknowledged delete of the entry just added restores the previous list |
| `Editing.DeleteKeepsOthers` | client/src/components/UploadTrack.jsx:42-46 | an acknowledged delete keeps every other entry: with the removed one they are the original entries |
| `LocalPlayer.GateIff` | client/src/components/LocalPlayer.jsx:120 | scheduled playback passes the gate exactly for a present profile that is neither blocked nor alarm-blocked |
| `LocalPlayer.Fire` | client/src/components/LocalPlayer.jsx:29-38 | a tick with an open gate from live starts the fade-out iff some entry matches the clock text, with the first match's track; otherwise nothing changes |
| `LocalPlayer.Tick` | client/src/components/LocalPlayer.jsx:29-38 | a tick with a closed gate does nothing; from live it starts the fade-out iff the gate is open and an entry matches, with the first match's track, from the current volume |
| `LocalPlayer.Rows` | client/src/components/LocalPlayer.jsx:308-315 | one row per entry in order, with its time, its name without the "{id}-" prefix, and bold exactly when the page's own `isNextToPlay` holds for its time |
| `LocalPlayer.Render` | client/src/components/LocalPlayer.jsx:251-318 | a loading notice exactly until the profile arrives, a notice exactly for a blocked profile, otherwise the player: the plan's days minus the shown figure is the number of whole days since the profile's creation (before it, the plan's days plus the whole days still to go), the profile button is disabled exactly when alarm-blocked, and the schedule rows are those of `Rows` |
| `LocalPlayer.BoldRowFiresSoon` | client/src/components/LocalPlayer.jsx:236-243 | a bold row whose time is well-formed fires within the next 60 seconds |
| `LocalPlayer.MidnightRowNotBold` | client/src/components/LocalPlayer.jsx:236-243 | at 23:59:30 the row for 00:00:10 is not bold, although that entry fires within 60 seconds |
| `LocalPlayer.GateIffScheduleShown` | client/src/components/LocalPlayer.jsx:251-318 | scheduled playback is possible exactly when the page shows the schedule list |
| `LocalPlayer.RowShowsOriginalName` | client/src/components/LocalPlayer.jsx:309 | a row for one of the profile's own uploads shows the original file name |
| `LocalPlayer.NextTrackIndex` | client/src/components/LocalPlayer.jsx:171-175 | the next index exists exactly for a non-empty playlist, lies within it, advances by one, and wraps from the last track to the first |
| `LocalPlayer.PlaylistCycles` | client/src/components/LocalPlayer.jsx:171-175 | from the first track, the k-th track end reaches position k, and the n-th returns to the first |
| `LocalPlayer.Arrive` | client/src/components/LocalPlayer.jsx:22-38 | a profile response only replaces the page's profile; a schedule response also re-creates the tick interval with the profile of that render |
| `LocalPlayer.TickAsWritten` | client/src/components/LocalPlayer.jsx:28-38 | the running interval does nothing while the profile it captured is missing |
| `LocalPlayer.StaleProfileSuppressesSchedule` | client/src/components/LocalPlayer.jsx:28-38 | when the schedule answers before the profile, no later profile delivery lets a matching tick through, though the page's own profile would |
| `LocalPlayer.TickAgreesWhenFresh` | client/src/components/LocalPlayer.jsx:28-38 | when the interval captured the current profile, the written tick and the intended one coincide |
| `LocalPlayer.ProfileFirstIsFresh` | client/src/components/LocalPlayer.jsx:22-26 | when the profile answers first, the interval captures it |
| `LocalPlayer.AddTrack` | client/src/components/LocalPlayer.jsx:190-203 | the new entry is appended and posted to the profile's schedule, and the form is cleared |
| `LocalPlayer.AddedEntryFires` | client/src/components/LocalPlayer.jsx:190-194 | an added entry for a time no earlier entry has fires at that time, through an open gate |
| `RadioPlayer.Tick` | client/src/components/RadioPlayer.jsx:32-42 | without any gate, a tick from live starts the fade-out iff an entry matches, with the first match's track, at full volume |
| `RadioPlayer.TickStartsAtFull` | client/src/components/RadioPlayer.jsx:53-55 | a matching tick always starts the fade-out at 1.0, whatever the live volume |
| `RadioPlayer.AddTrack` | client/src/components/RadioPlayer.jsx:98-111 | the new entry goes last and the whole list is posted to the shared schedule; earlier entries are kept and the form is cleared |
| `RadioPlayer.AddKeepsEarlierMatch` | client/src/components/RadioPlayer.jsx:98-101 | adding an entry never changes what an already-matching tick fires |
| `RadioProfile.DeleteScheduleItem` | client/src/components/RadioProfile.jsx:57-68 | exactly the position is removed from the posted list, an out-of-range index posts it unchanged, and the page adopts the list only on acknowledgement |
| `RadioProfile.AddTrack` | client/src/components/RadioProfile.jsx:83-97 | the entry goes last, earlier entries are unchanged, the list is posted to the profile's schedule, and the form is cleared |
| `RadioProfile.DeleteTrack` | client/src/components/RadioProfile.jsx:70-80 | a DELETE of the track's name after its first hyphen under the profile; the message reports success exactly on acknowledgement and failure exactly on error |
| `RadioProfile.DeleteNamesStoredTrack` | client/src/components/RadioProfile.jsx:71-72 | for a stored "{prefix}-{name}" the delete request names exactly the original name |
| `RadioProfile.DeleteRequestsShownName` | client/src/components/RadioProfile.jsx:133-136 | the delete button of a listed track requests the name that list shows for it |
| `RadioProfile.TrackOptions` | client/src/components/RadioProfile.jsx:113-118 | one option per uploaded track in order, valued with the stored name and captioned with the name after the first hyphen |
| `RadioProfile.TrackLabels` | client/src/components/RadioProfile.jsx:133-135 | the uploaded-tracks list shows each track's name after the first hyphen, in order |
| `RadioProfile.AddStoresOptionValue` | client/src/components/RadioProfile.jsx:113-119 | adding after choosing an option schedules the stored file name, not its caption |
| `RadioProfile.LabelsAgree` | client/src/components/RadioProfile.jsx:116-135 | the list and the select show the same name for a track, "" for one without a hyphen |
| `UploadTrack.Delete` | client/src/components/UploadTrack.jsx:41-52 | the posted list is the schedule with exactly that position removed and the rest in order, unchanged for an out-of-range index; it is adopted only on acknowledgement |
| `UploadTrack.DeleteFirstTwice` | client/src/components/UploadTrack.jsx:41-46 | two acknowledged deletes of the first entry, the second clicked after the first reply, remove the first two entries |
| `UploadTrack.OverlappingDeleteFirstTwice` | client/src/components/UploadTrack.jsx:41-52 | two clicks on the first entry before either reply post the same list, which still holds the second entry |
| `History.GroupById` | client/src/components/History.jsx:25-32 | one group per id that occurs, holding exactly that id's items in log order, headed by the company and name of its first item |
| `History.NoHistoryNoGroups` | client/src/components/History.jsx:26-32 | an empty log gives no groups |
| `History.GroupHeaderStable` | client/src/components/History.jsx:27-30 | later items never overwrite a group's company or name, and only extend its details at the end |
| `History.DistinctIds` | client/src/components/History.jsx:26-29 | each id once, and exactly the ids of the log |
| `History.DistinctIdsOrder` | client/src/components/History.jsx:26-29 | the ids come in order of first appearance: an id's first log entry follows the first entry of every id listed before it |
| `History.Partition` | client/src/components/History.jsx:26-32 | counting each item under its own id, with every id listed once, counts the whole log |
| `History.GroupSizesSum` | client/src/components/History.jsx:25-32 | the group sizes add up to the log's length, and there is one group per distinct id |
| `History.Insert` | client/src/components/History.jsx:82 | inserting into a newest-first list keeps it newest first and adds exactly the item |
| `History.PlaceCounts` | client/src/components/History.jsx:82 | inserting adds exactly the one item, on any list |
| `History.PlaceSorted` | client/src/components/History.jsx:82 | inserting into a newest-first list keeps it newest first |
| `History.SortNewestFirst` | client/src/components/History.jsx:82 | the sorted details are a permutation of the group with non-increasing timestamps |
| `History.PlaceStable` | client/src/components/History.jsx:82 | inserting an item keeps, among items of any one timestamp, the order they had, with the new item first among its equals |
| `History.SortStable` | client/src/components/History.jsx:82 | actions with equal timestamps keep their log order |
| `History.Cards` | client/src/components/History.jsx:80-82 | one card per distinct id, headed by the company and name of that id's first action, each listing a permutation of that id's items newest first |

## Left out

- Audio I/O: the audio elements, the network (axios), `localStorage` and
  `URL.createObjectURL` are not modelled. Requests appear as `Request`
  values, and replies and audio callbacks appear as inputs.
- Real time: the 1000 ms and 200 ms intervals are event sequences. Ticks are
  taken to come once per distinct clock second. Two callbacks in the same
  second, or the hour the clock repeats when daylight saving ends, would
  match an entry twice and start overlapping fades.
- `Fade.FadeOut`: floating-point drift is not modelled. In the source, 1.0
  minus 0.1 nine times is slightly above 0.1, so the fade-out writes one
  extra near-zero volume before the final 0.
- `Fade.FadeIn`: for the same reason the source's fade-in from 0 writes a
  value just below 1.0 before the final 1.0, eleven writes instead of ten.
- Overlapping announcements: a trigger that arrives while an announcement is
  in progress is dropped. In the source it would start a second fade
  interval alongside the first.
- Changes during a fade: slider moves, mute, pause and manual play during an
  announcement are not modelled. Manual playback (`handlePlay`, `handlePause`,
  `handleMute`, `handleVolumeChange`) is left out as plain audio-element
  I/O.
- Missing audio callbacks: an announcement that never fires `canplaythrough`
  or `ended` is modelled as `LoadFailed`/`PlayFailed`, which leave the live
  element silent. The source does nothing here: a load failure is silent,
  because no `onerror` handler is set, and a rejected `play()` is only
  logged.
- Local file handling: `handleLocalFiles`, `saveLocalTracksToStorage`,
  `loadLocalTracks` and `playLocalTrack` work on files and `localStorage`.
  Only the next-index arithmetic of `handleLocalTrackEnd` is modelled.
- `LocalPlayer.AddTrack`: this handler is modelled, but the page renders no
  form that calls it.
- `Clock.ToNumber`: models `Number` only on digit strings and the empty
  string. Signs, surrounding spaces, decimals, exponents, the radix prefixes
  "0x", "0o" and "0b", and "Infinity" are treated as NaN, though `Number`
  accepts them.
- `Clock.ParseClock`: hours of 24 or more land on a later day, as with
  `setHours`. Daylight-saving shifts are not modelled.
- `Clock.Format`: takes `toLocaleTimeString('en-GB', { hour12: false })` to
  be two-digit "HH:MM:SS" with midnight as "00:00:00".
- Clock precision: the milliseconds that separate the two `new Date()`
  calls in `isNextToPlay` are ignored, and times are compared in whole
  seconds.
- `Subscription.DifferenceInDays`: date-fns' calendar-day handling across
  daylight-saving changes is replaced by 24-hour days. Date parsing is
  left out, so instants are given as milliseconds.
- History timestamps: these are numbers. Unparsable dates, which make the
  comparator return NaN, are left out.
- `History.Cards`: cards follow the order in which ids first appear. This
  ignores the JavaScript rule that lists integer-like keys first in
  `Object.keys`.
- Refetches after saves: `fetchSchedule` and `fetchTracks` are reloads from
  the server. So are the refetch after `RadioProfile`'s add and after an
  upload. They are not modelled.
- Upload handlers: these send a file and set a message.
- `Editing.DeleteEntry`: each call starts from the list of the latest
  render, so a sequence of calls models clicks that each wait for the
  previous reply. Clicks made before a reply all filter the same list, and
  the server keeps whichever save comes last, so an earlier deletion can be
  undone. The model shows what the requests carry but not the server's
  order of arrival.
- `UploadTrack.DeleteFirstTwice`: holds only when the second click comes
  after the first reply, for the reason given above.
- Logout: this only clears storage and navigates.
- server/server.js is not part of this model. It does no scheduling or
  subscription arithmetic.

## Findings

| source | as written | input that shows it | evidently intended | confidence | as-written member | corrected member |
|---|---|---|---|---|---|---|
| client/src/components/LocalPlayer.jsx:28-38 | the tick interval is re-created only when the schedule changes, so `playScheduledTrack` tests the profile captured at that render | the schedule response arrives before the profile response; afterwards no scheduled entry ever plays on that page | the gate reads the page's current profile | medium, not executed | `LocalPlayer.StaleProfileSuppressesSchedule` | `LocalPlayer.Tick` |
| client/src/components/LocalPlayer.jsx:236-243 | the scheduled time is placed on today's date, so an entry just after midnight is compared with the past | now 23:59:30, entry "00:00:10": it fires 40 seconds later but is not bold | bold the entry whose tick comes within the next 60 seconds, across midnight | high, not executed | `Clock.MidnightEntryNotHighlighted` | `Clock.NextToPlayIffFiresSoon` |

=== FILE: clock.dfy ===
/** Wall-clock text of the players. A tick reads the time of day as
    `toLocaleTimeString('en-GB', { hour12: false })`, two-digit "HH:MM:SS",
    and schedule entries are matched against that text. Times of day are
    seconds since midnight. */
module Clock {
  import opened Common
  import opened Text

  const SecondsPerDay: int := 86_400

  /** A time of day, in seconds since midnight. */
  type Second = t: int | 0 <= t < SecondsPerDay

  predicate IsDigit(c: char)
  {
    '0' <= c <= '9'
  }

  function Digit(d: nat): (c: char)
    requires d < 10
    ensures IsDigit(c)
  {
    (48 + d) as char
  }

  /** `n` written with two digits, zero-padded. */
  function Pad2(n: nat): string
    requires n < 100
  {
    [Digit(n / 10), Digit(n % 10)]
  }

  /** The clock text of a tick at second `t`: "HH:MM:SS". */
  function Format(t: Second): (s: string)
    ensures |s| == 8 && s[2] == ':' && s[5] == ':'
    ensures forall i :: 0 <= i < |s| && i != 2 && i != 5 ==> IsDigit(s[i])
  {
    Pad2(t / 3600) + ":" + Pad2(t / 60 % 60) + ":" + Pad2(t % 60)
  }

  /** The value of a string of decimal digits. */
  function DigitsValue(s: string): nat
    requires forall i :: 0 <= i < |s| ==> IsDigit(s[i])
  {
    if s == [] then 0
    else DigitsValue(s[..|s| - 1]) * 10 + DigitValue(s[|s| - 1])
  }

  function DigitValue(c: char): (d: nat)
    requires IsDigit(c)
    ensures d < 10
  {
    c as int - '0' as int
  }

  /** `Number(piece)` for the pieces a clock text splits into: a string of
      decimal digits is its value, the empty string is 0, and anything else
      is NaN (`None`). */
  function ToNumber(s: string): (r: Option<nat>)
    ensures r.None? <==> exists i :: 0 <= i < |s| && !IsDigit(s[i])
  {
    if forall i :: 0 <= i < |s| ==> IsDigit(s[i]) then Some(DigitsValue(s)) else None
  }

  /** The number of seconds after midnight that `setHours(hours, minutes,
      seconds)` moves a date to, for `time.split(':').map(Number)`: `None`
      when fewer than three pieces exist or a piece is not a number (the
      date becomes invalid); pieces after the third are ignored, and an
      hour of 24 or more lands on a later day. */
  function ParseClock(time: string): (r: Option<nat>)
    ensures r.Some? ==> |Split(time, ':')| >= 3
  {
    var parts := Split(time, ':');
    if |parts| < 3 then None
    else match (ToNumber(parts[0]), ToNumber(parts[1]), ToNumber(parts[2]))
      case (Some(h), Some(m), Some(s)) => Some(h * 3600 + m * 60 + s)
      case _ => None
  }

  lemma Pad2Value(n: nat)
    requires n < 100
    ensures ToNumber(Pad2(n)) == Some(n)
  {
    var p := Pad2(n);
    assert p[..1] == [Digit(n / 10)];
    assert p[..1][..0] == [];
    assert DigitValue(Digit(n / 10)) == n / 10;
    assert DigitValue(Digit(n % 10)) == n % 10;
    assert DigitsValue(p[..1]) == n / 10;
    assert DigitsValue(p) == DigitsValue(p[..1]) * 10 + n % 10;
  }

  /** Three colon-free pieces joined by colons parse as hours, minutes and
      seconds. */
  lemma ParseThree(a: string, b: string, c: string)
    requires ':' !in a && ':' !in b && ':' !in c
    ensures ParseClock(a + [':'] + b + [':'] + c) ==
      match (ToNumber(a), ToNumber(b), ToNumber(c))
      case (Some(h), Some(m), Some(s)) => Some(h * 3600 + m * 60 + s)
      case _ => None
  {
    var s := a + [':'] + b + [':'] + c;
    SplitThree(a, b, c);
    assert Split(s, ':') == [a, b, c];
  }

  lemma SplitThree(a: string, b: string, c: string)
    requires ':' !in a && ':' !in b && ':' !in c
    ensures Split(a + [':'] + b + [':'] + c, ':') == [a, b, c]
  {
    var bc := b + [':'] + c;
    assert a + [':'] + b + [':'] + c == a + [':'] + bc;
    SplitLeading(a, ':', bc);
    SplitLeading(b, ':', c);
  }

  /** Hours, minutes and seconds of a time of day recombine to it. */
  lemma Recombine(t: Second)
    ensures t / 3600 < 24 && t / 60 % 60 < 60 && t % 60 < 60
    ensures (t / 3600) * 3600 + (t / 60 % 60) * 60 + t % 60 == t
  {
    var q := t / 60;
    assert t == q * 60 + t % 60;
    assert q == (q / 60) * 60 + q % 60;
    assert q / 60 == t / 3600;
  }

  /** The clock text of a tick parses back to the same second. */
  lemma ParseFormat(t: Second)
    ensures ParseClock(Format(t)) == Some(t)
  {
    var h, m, s := t / 3600, t / 60 % 60, t % 60;
    Recombine(t);
    var hh, mm, ss := Pad2(h), Pad2(m), Pad2(s);
    assert Format(t) == hh + [':'] + mm + [':'] + ss;
    Pad2Value(h);
    Pad2Value(m);
    Pad2Value(s);
    ParseThree(hh, mm, ss);
    assert ParseClock(Format(t)) == Some(h * 3600 + m * 60 + s);
  }

  /** Different seconds of the day have different clock texts. */
  lemma FormatInjective(a: Second, b: Second)
    ensures Format(a) == Format(b) <==> a == b
  {
    ParseFormat(a);
    ParseFormat(b);
  }

  /** `isNextToPlay(time)` as written, at second `now`: the scheduled
      moment is built on today's date, so it is highlighted exactly when it
      lies between now and one minute later on the same day. */
  function IsNextToPlayAsWritten(time: string, now: Second): bool
  {
    match ParseClock(time)
    case None => false
    case Some(sched) => 0 <= sched - now <= 60
  }

  /** The time of day `k` seconds after `now`. */
  function Later(now: Second, k: nat): Second
  {
    (now + k) % SecondsPerDay
  }

  /** A canonical clock text: one that some tick of the day produces. */
  predicate Canonical(time: string)
  {
    match ParseClock(time)
    case None => false
    case Some(sched) => sched < SecondsPerDay && Format(sched) == time
  }

  /** The highlight the player means: the entry fires within the next
      minute, counting across midnight. */
  function IsNextToPlay(time: string, now: Second): bool
  {
    match ParseClock(time)
    case None => false
    case Some(sched) => sched < SecondsPerDay && Format(sched) == time && (sched - now) % SecondsPerDay <= 60
  }

  /** Going forward `(x - now) mod day` seconds from `now` reaches `x`, and
      that is the only way to reach `x` in less than a day. */
  lemma LaterInverse(now: Second, x: Second, k: nat)
    requires k < SecondsPerDay
    ensures Later(now, k) == x <==> (x - now) % SecondsPerDay == k
  {
    if x >= now {
      assert (x - now) % SecondsPerDay == x - now;
    } else {
      assert (x - now) % SecondsPerDay == x - now + SecondsPerDay;
    }
    if now + k >= SecondsPerDay {
      assert Later(now, k) == now + k - SecondsPerDay;
    } else {
      assert Later(now, k) == now + k;
    }
  }

  lemma NextToPlayFiresSoon(time: string, now: Second) returns (k: nat)
    requires IsNextToPlay(time, now)
    ensures k <= 60 && Format(Later(now, k)) == time
  {
    var sched: Second := ParseClock(time).value;
    k := (sched - now) % SecondsPerDay;
    LaterInverse(now, sched, k);
  }

  lemma FiresSoonNextToPlay(time: string, now: Second, k: nat)
    requires k <= 60 && Format(Later(now, k)) == time
    ensures IsNextToPlay(time, now)
  {
    var x := Later(now, k);
    ParseFormat(x);
    LaterInverse(now, x, k);
  }

  /** The corrected highlight holds exactly when a tick within the next 60
      seconds has `time` as its clock text. */
  lemma NextToPlayIffFiresSoon(time: string, now: Second)
    ensures IsNextToPlay(time, now) <==>
      exists k: nat :: k <= 60 && Format(Later(now, k)) == time
  {
    if IsNextToPlay(time, now) {
      var k := NextToPlayFiresSoon(time, now);
    }
    if exists k: nat :: k <= 60 && Format(Later(now, k)) == time {
      var k: nat :| k <= 60 && Format(Later(now, k)) == time;
      FiresSoonNextToPlay(time, now, k);
    }
  }

  /** Away from midnight the written check agrees with the intended one on
      every canonical clock text. */
  lemma AsWrittenAgreesBeforeMidnight(time: string, now: Second)
    requires Canonical(time) && now + 60 < SecondsPerDay
    ensures IsNextToPlayAsWritten(time, now) == IsNextToPlay(time, now)
  {
  }

  /** Whatever the written check highlights on a canonical text, the
      intended one highlights too. */
  lemma AsWrittenImpliesIntended(time: string, now: Second)
    requires Canonical(time)
    ensures IsNextToPlayAsWritten(time, now) ==> IsNextToPlay(time, now)
  {
  }

  /** At 23:59:30 the entry for 00:00:10 fires in 40 seconds, but the
      written check compares it with 00:00:10 of the same day and does not
      highlight it. */
  lemma MidnightEntryNotHighlighted()
    ensures Format(10) == "00:00:10" && Format(86370) == "23:59:30"
    ensures !IsNextToPlayAsWritten("00:00:10", 86370)
    ensures IsNextToPlay("00:00:10", 86370)
  {
    FormatExamples();
    ParseFormat(10);
    assert Later(86370, 40) == 10;
    FiresSoonNextToPlay("00:00:10", 86370, 40);
  }

  lemma FormatExamples()
    ensures Format(10) == "00:00:10" && Format(86370) == "23:59:30"
  {
    assert Pad2(0) == "00" && Pad2(10) == "10";
    assert Pad2(23) == "23" && Pad2(59) == "59" && Pad2(30) == "30";
    assert 86370 / 3600 == 23 && 86370 / 60 % 60 == 59 && 86370 % 60 == 30;
  }
}

=== FILE: common.dfy ===
/** Small shared vocabulary: an optional value (JavaScript's `undefined`/`null`
    or a failed lookup) and the outcome of a request sent to the server. */
module Common {

  datatype Option<+T> = None | Some(value: T)

  /** Whether the server answered a POST/DELETE with success (axios `.then`)
      or with an error (axios `.catch`). */
  datatype Reply = Acknowledged | Failed

  /** A request the client sends: the path below the server's base URL and,
      for a schedule save, the whole schedule as the body. */
  datatype Request<+B> = Post(path: string, body: B) | Delete(path: string)
}

=== FILE: editing.dfy ===
/** The schedule editors every component shares: the add form, which
    updates the list before the save request and clears its inputs, and the
    delete button, which saves the list without one entry and adopts it only
    when the server acknowledges. */
module Editing {
  import opened Common
  import opened Schedule

  /** The editor state a component keeps: its copy of the schedule, the
      status message, and the add form's two inputs. */
  datatype Editor = Editor(schedule: seq<Entry>, message: string, newTrack: string, newTime: string)

  /** A handler's result: the new editor state and the request it sent. */
  datatype Edit = Edit(editor: Editor, request: Request<seq<Entry>>)

  const SavedMessage: string := "Schedule updated successfully"
  const SaveFailedMessage: string := "Failed to update schedule"

  /** `handleAddTrack`: the form's track and time become a new last entry,
      the local copy is replaced before the save request is answered (the
      reply only logs), and the form is cleared. */
  function AddEntry(path: string, ed: Editor, reply: Reply): (r: Edit)
    ensures r.request.Post? && r.request.path == path
    ensures r.editor.schedule == r.request.body
    ensures |r.editor.schedule| == |ed.schedule| + 1
    ensures r.editor.schedule[..|ed.schedule|] == ed.schedule
    ensures r.editor.schedule[|ed.schedule|] == Entry(ed.newTrack, ed.newTime)
    ensures r.editor.newTrack == "" && r.editor.newTime == ""
    ensures r.editor.message == ed.message
  {
    var updated := Append(ed.schedule, Entry(ed.newTrack, ed.newTime));
    Edit(ed.(schedule := updated, newTrack := "", newTime := ""), Post(path, updated))
  }

  /** The delete button of entry `index`: the list without that position is
      posted; on success it becomes the local copy and the success message is
      shown, on failure the local copy is kept and the failure message is
      shown. The form inputs are untouched. */
  function DeleteEntry(path: string, ed: Editor, index: int, reply: Reply): (r: Edit)
    ensures r.request == Post(path, RemoveAt(ed.schedule, index))
    ensures reply == Acknowledged ==> r.editor.schedule == r.request.body && r.editor.message == SavedMessage
    ensures reply == Failed ==> r.editor.schedule == ed.schedule && r.editor.message == SaveFailedMessage
    ensures r.editor.newTrack == ed.newTrack && r.editor.newTime == ed.newTime
  {
    var updated := RemoveAt(ed.schedule, index);
    match reply
    case Acknowledged => Edit(ed.(schedule := updated, message := SavedMessage), Post(path, updated))
    case Failed => Edit(ed.(message := SaveFailedMessage), Post(path, updated))
  }

  /** Adding never waits for the server: the local copy is the same whatever
      the reply. */
  lemma AddIgnoresReply(path: string, ed: Editor)
    ensures AddEntry(path, ed, Acknowledged) == AddEntry(path, ed, Failed)
  {
  }

  /** A delete that fails leaves the schedule as it was, so retrying the same
      button after a failure deletes the same entry. */
  lemma FailedDeleteThenRetry(path: string, ed: Editor, index: int)
    ensures DeleteEntry(path, DeleteEntry(path, ed, index, Failed).editor, index, Acknowledged).editor.schedule
         == DeleteEntry(path, ed, index, Acknowledged).editor.schedule
  {
  }

  /** Deleting the entry that was just added, with the server acknowledging,
      restores the schedule the editor had before the add. */
  lemma DeleteUndoesAdd(path: string, ed: Editor, reply: Reply)
    ensures DeleteEntry(path, AddEntry(path, ed, reply).editor, |ed.schedule|, Acknowledged).editor.schedule
         == ed.schedule
  {
    RemoveAppended(ed.schedule, Entry(ed.newTrack, ed.newTime));
  }

  /** An acknowledged delete of a valid position keeps every other entry:
      together with the removed one they are the original entries. */
  lemma DeleteKeepsOthers(path: string, ed: Editor, index: int)
    requires 0 <= index < |ed.schedule|
    ensures multiset(DeleteEntry(path, ed, index, Acknowledged).editor.schedule) + multiset{ed.schedule[index]}
         == multiset(ed.schedule)
  {
    RemoveAtIsPermutationMinusOne(ed.schedule, index);
  }

  /** Two delete clicks before the first reply: both handlers filter the
      list of the same render, so the second request still carries the
      entry the first click deleted. Whichever request the server applies
      last decides the saved list, and if it is the second, the first
      deletion is lost. */
  lemma OverlappingDeletesKeepFirst(path: string, ed: Editor, i: int, j: int, reply: Reply)
    requires 0 <= i < |ed.schedule| && 0 <= j < |ed.schedule| && i != j
    ensures ed.schedule[i] in DeleteEntry(path, ed, j, reply).request.body
    ensures |DeleteEntry(path, ed, j, reply).request.body| == |ed.schedule| - 1
  {
    var body := DeleteEntry(path, ed, j, reply).request.body;
    if i < j {
      assert body[i] == ed.schedule[i];
    } else {
      assert body[i - 1] == ed.schedule[i];
    }
  }
}

=== FILE: fade.dfy ===
/** The volume ramps of the players, as the sequence of volumes successive
    200 ms timer firings write to the live audio element. Volume is counted in
    hundredths of full scale (the player's slider moves in steps of 0.01), so
    the ramps' step of 0.1 is `Tenth` = 10 and full volume 1.0 is `Full` = 100. */
module Fade {

  const Full: int := 100
  const Tenth: int := 10

  /** A volume the audio element accepts: between 0 and 1.0 inclusive. */
  type Volume = v: int | 0 <= v <= Full

  /** `fadeOut` from internal level `start`: while the level is above 0.1 it
      drops by 0.1 and is written; otherwise 0 is written, the timer stops and
      the callback runs. */
  function FadeOut(start: Volume): (vs: seq<Volume>)
    ensures |vs| >= 1 && vs[|vs| - 1] == 0
    ensures start - (|vs| - 1) * Tenth <= Tenth
    decreases start
  {
    if start > Tenth then [start - Tenth] + FadeOut(start - Tenth) else [0]
  }

  /** Every write before the last is one more step of 0.1 below the start,
      and still audible. */
  lemma {:induction false} FadeOutSteps(start: Volume)
    ensures forall i :: 0 <= i < |FadeOut(start)| - 1 ==>
      FadeOut(start)[i] == start - (i + 1) * Tenth && FadeOut(start)[i] > 0
    decreases start
  {
    if start > Tenth {
      FadeOutSteps(start - Tenth);
      var vs := FadeOut(start);
      var ws := FadeOut(start - Tenth);
      assert vs == [start - Tenth] + ws;
      forall i | 1 <= i < |vs| - 1
        ensures vs[i] == start - (i + 1) * Tenth && vs[i] > 0
      {
        assert vs[i] == ws[i - 1];
      }
    }
  }

  /** The fade-out never writes above its start, goes strictly down, and
      its first write is already below a non-zero start. */
  lemma FadeOutDescends(start: Volume)
    ensures forall i :: 0 <= i < |FadeOut(start)| ==> FadeOut(start)[i] <= start
    ensures start > 0 ==> FadeOut(start)[0] < start
    ensures forall i, j :: 0 <= i < j < |FadeOut(start)| ==> FadeOut(start)[j] < FadeOut(start)[i]
  {
    FadeOutSteps(start);
  }

  /** `fadeIn` from internal level `level`: while the level is below 0.9 it
      rises by 0.1 and is written; otherwise 1.0 is written and the timer
      stops. */
  function FadeInFrom(level: Volume): (vs: seq<Volume>)
    ensures |vs| >= 1 && vs[|vs| - 1] == Full
    decreases Full - level
  {
    if level < Full - Tenth then [level + Tenth] + FadeInFrom(level + Tenth) else [Full]
  }

  /** Every write before the last is one more step of 0.1 above the start,
      and still below full volume. */
  lemma {:induction false} FadeInSteps(level: Volume)
    ensures forall i :: 0 <= i < |FadeInFrom(level)| - 1 ==>
      FadeInFrom(level)[i] == level + (i + 1) * Tenth && FadeInFrom(level)[i] < Full
    decreases Full - level
  {
    if level < Full - Tenth {
      FadeInSteps(level + Tenth);
      var vs := FadeInFrom(level);
      var ws := FadeInFrom(level + Tenth);
      assert vs == [level + Tenth] + ws;
      forall i | 1 <= i < |vs| - 1
        ensures vs[i] == level + (i + 1) * Tenth && vs[i] < Full
      {
        assert vs[i] == ws[i - 1];
      }
    }
  }

  /** The fade-in never writes below its start, goes strictly up, and its
      first write is already above a start below full volume. */
  lemma FadeInRises(level: Volume)
    ensures forall i :: 0 <= i < |FadeInFrom(level)| ==> level <= FadeInFrom(level)[i]
    ensures level < Full ==> level < FadeInFrom(level)[0]
    ensures forall i, j :: 0 <= i < j < |FadeInFrom(level)| ==> FadeInFrom(level)[i] < FadeInFrom(level)[j]
  {
    FadeInSteps(level);
  }

  /** The fade-in both players run: it starts from silence and writes 0.1,
      0.2, ... up to 0.9, then 1.0. */
  function FadeIn(): (vs: seq<Volume>)
    ensures vs == [10, 20, 30, 40, 50, 60, 70, 80, 90, 100]
  {
    FadeInFrom(0)
  }
}

=== FILE: history.dfy ===
/** The admin history page: the fetched action log is folded into one group
    per stream id, and each group's actions are listed newest first.
    Timestamps are milliseconds since the epoch. */
module History {

  /** One logged action on a stream. The id is the group key, as text. */
  datatype Item = Item(id: string, companyName: string, name: string, action: string, timestamp: int, details: string)

  /** One stream's card: its actions in log order, and the company and name
      the card header shows. */
  datatype Group = Group(details: seq<Item>, companyName: string, name: string)

  /** The ids that occur in the log. */
  function Ids(h: seq<Item>): set<string>
  {
    set i | 0 <= i < |h| :: h[i].id
  }

  /** A reference definition: the log's items with id `k`, in log order. */
  function ItemsWithId(h: seq<Item>, k: string): seq<Item>
  {
    if h == [] then [] else (if h[0].id == k then [h[0]] else []) + ItemsWithId(h[1..], k)
  }

  lemma {:induction false} ItemsWithIdAppend(a: seq<Item>, b: seq<Item>, k: string)
    ensures ItemsWithId(a + b, k) == ItemsWithId(a, k) + ItemsWithId(b, k)
    decreases |a|
  {
    if a != [] {
      assert (a + b)[1..] == a[1..] + b;
      ItemsWithIdAppend(a[1..], b, k);
    } else {
      assert a + b == b;
    }
  }

  lemma {:induction false} ItemsWithIdEmpty(h: seq<Item>, k: string)
    ensures ItemsWithId(h, k) == [] <==> k !in Ids(h)
    decreases |h|
  {
    if h != [] {
      ItemsWithIdEmpty(h[1..], k);
      assert Ids(h) == {h[0].id} + Ids(h[1..]) by {
        forall x | x in Ids(h) ensures x in {h[0].id} + Ids(h[1..]) {
          var i :| 0 <= i < |h| && h[i].id == x;
          if i > 0 { assert h[1..][i - 1] == h[i]; }
        }
        forall x | x in Ids(h[1..]) ensures x in Ids(h) {
          var i :| 0 <= i < |h[1..]| && h[1..][i].id == x;
          assert h[i + 1] == h[1..][i];
        }
      }
    }
  }

  /** One step of the `reduce`: the first item with a new id opens its group
      and fixes the group's company and name; every item is pushed onto its
      group's details. */
  function AddItem(acc: map<string, Group>, item: Item): map<string, Group>
  {
    if item.id in acc then acc[item.id := acc[item.id].(details := acc[item.id].details + [item])]
    else acc[item.id := Group([item], item.companyName, item.name)]
  }

  /** `groups` is the grouping of log `h`: one group per id that occurs,
      holding exactly that id's items in log order, headed by the company and
      name of the first of them. */
  ghost predicate Grouped(h: seq<Item>, groups: map<string, Group>)
  {
    && groups.Keys == Ids(h)
    && (forall k :: k in groups ==> groups[k].details == ItemsWithId(h, k))
    && (forall k :: k in groups ==> HeadedByFirst(groups[k]))
  }

  predicate HeadedByFirst(g: Group)
  {
    |g.details| > 0 && g.companyName == g.details[0].companyName && g.name == g.details[0].name
  }

  /** `groupHistoryById(history)`: the `reduce` over the log. */
  function GroupById(h: seq<Item>): (groups: map<string, Group>)
    ensures Grouped(h, groups)
    decreases |h|
  {
    if h == [] then map[]
    else
      var init := h[..|h| - 1];
      var last := h[|h| - 1];
      assert h == init + [last];
      var acc := GroupById(init);
      GroupStep(init, last, acc);
      AddItem(acc, last)
  }

  /** The `reduce` step keeps the grouping. */
  lemma GroupStep(init: seq<Item>, last: Item, acc: map<string, Group>)
    requires Grouped(init, acc)
    ensures Grouped(init + [last], AddItem(acc, last))
  {
    var h := init + [last];
    var r := AddItem(acc, last);
    assert h[..|h| - 1] == init;
    IdsSnoc(h);
    forall k | k in r
      ensures r[k].details == ItemsWithId(h, k) && HeadedByFirst(r[k])
    {
      ItemsWithIdAppend(init, [last], k);
      assert ItemsWithId([last], k) == (if last.id == k then [last] else []) + ItemsWithId([], k);
      if k == last.id && last.id !in acc {
        ItemsWithIdEmpty(init, last.id);
      }
    }
  }

  /** Empty history, no groups. */
  lemma NoHistoryNoGroups()
    ensures GroupById([]) == map[]
  {
  }

  /** Later actions never change an existing group's header: its company and
      name stay those of the first action seen with its id, and its details
      only grow at the end. */
  lemma GroupHeaderStable(h: seq<Item>, more: seq<Item>, k: string)
    requires k in GroupById(h)
    ensures k in GroupById(h + more)
    ensures GroupById(h + more)[k].companyName == GroupById(h)[k].companyName
    ensures GroupById(h + more)[k].name == GroupById(h)[k].name
    ensures GroupById(h + more)[k].details == GroupById(h)[k].details + ItemsWithId(more, k)
  {
    ItemsWithIdAppend(h, more, k);
    ItemsWithIdEmpty(h, k);
    ItemsWithIdEmpty(h + more, k);
  }

  /** The ids of the log in order of first appearance. */
  function DistinctIds(h: seq<Item>): (ids: seq<string>)
    ensures forall i, j :: 0 <= i < j < |ids| ==> ids[i] != ids[j]
    ensures forall k :: k in ids <==> k in Ids(h)
    decreases |h|
  {
    if h == [] then []
    else
      var init := DistinctIds(h[..|h| - 1]);
      IdsSnoc(h);
      if h[|h| - 1].id in init then init else init + [h[|h| - 1].id]
  }

  /** Whenever `ids` lists one id before another, the first id occurs in
      the log before any occurrence of the second. */
  ghost predicate FirstAppearanceOrder(h: seq<Item>, ids: seq<string>)
  {
    forall i, j, p :: 0 <= i < j < |ids| && 0 <= p < |h| && h[p].id == ids[j] ==>
      exists q :: 0 <= q < p && h[q].id == ids[i]
  }

  /** `DistinctIds` lists the ids in order of first appearance. */
  lemma {:induction false} DistinctIdsOrder(h: seq<Item>)
    ensures FirstAppearanceOrder(h, DistinctIds(h))
    decreases |h|
  {
    if h != [] {
      var init := h[..|h| - 1];
      var last := h[|h| - 1];
      var prev := DistinctIds(init);
      var ids := DistinctIds(h);
      DistinctIdsOrder(init);
      assert ids == if last.id in prev then prev else prev + [last.id];
      forall i, j, p | 0 <= i < j < |ids| && 0 <= p < |h| && h[p].id == ids[j]
        ensures exists q :: 0 <= q < p && h[q].id == ids[i]
      {
        assert ids[i] == prev[i];
        assert ids[i] in Ids(init);
        if j < |prev| {
          assert ids[j] == prev[j];
          var p' := p;
          if p == |h| - 1 {
            assert ids[j] in Ids(init);
            p' :| 0 <= p' < |init| && init[p'].id == ids[j];
          } else {
            assert init[p] == h[p];
          }
          var q :| 0 <= q < p' && init[q].id == prev[i];
          assert h[q] == init[q];
        } else if p == |h| - 1 {
          var q :| 0 <= q < |init| && init[q].id == ids[i];
          assert h[q] == init[q];
        } else {
          assert false;
        }
      }
    }
  }

  lemma IdsSnoc(h: seq<Item>)
    requires h != []
    ensures Ids(h) == Ids(h[..|h| - 1]) + {h[|h| - 1].id}
  {
    var init := h[..|h| - 1];
    forall x | x in Ids(h) ensures x in Ids(init) + {h[|h| - 1].id} {
      var i :| 0 <= i < |h| && h[i].id == x;
      if i < |init| { assert h[i] == init[i]; }
    }
    forall x | x in Ids(init) ensures x in Ids(h) {
      var i :| 0 <= i < |init| && init[i].id == x;
      assert h[i] == init[i];
    }
  }

  /** The total number of items with the given ids. */
  function SizeSum(h: seq<Item>, keys: seq<string>): nat
  {
    if keys == [] then 0 else |ItemsWithId(h, keys[0])| + SizeSum(h, keys[1..])
  }

  /** How often `c` occurs in `keys`. */
  function Count(keys: seq<string>, c: string): nat
  {
    if keys == [] then 0 else (if keys[0] == c then 1 else 0) + Count(keys[1..], c)
  }

  lemma {:induction false} CountDistinct(keys: seq<string>, c: string)
    requires forall i, j :: 0 <= i < j < |keys| ==> keys[i] != keys[j]
    ensures Count(keys, c) == (if c in keys then 1 else 0)
    decreases |keys|
  {
    if keys != [] {
      var rest := keys[1..];
      assert forall i, j :: 0 <= i < j < |rest| ==> rest[i] != rest[j] by {
        forall i, j | 0 <= i < j < |rest| ensures rest[i] != rest[j] {
          assert rest[i] == keys[i + 1] && rest[j] == keys[j + 1];
        }
      }
      CountDistinct(rest, c);
      if keys[0] == c {
        assert c !in rest by {
          forall j | 0 <= j < |rest| ensures rest[j] != c {
            assert rest[j] == keys[j + 1];
          }
        }
      }
      assert c in keys <==> keys[0] == c || c in rest;
    }
  }

  /** Peeling the first item off the log removes one from its id's count. */
  lemma {:induction false} SizeSumCons(h: seq<Item>, keys: seq<string>)
    requires h != []
    ensures SizeSum(h, keys) == Count(keys, h[0].id) + SizeSum(h[1..], keys)
    decreases |keys|
  {
    if keys != [] {
      SizeSumCons(h, keys[1..]);
    }
  }

  /** Counting each item once under its own id, when every id is listed
      exactly once, counts the whole log. */
  lemma {:induction false} Partition(h: seq<Item>, keys: seq<string>)
    requires forall i, j :: 0 <= i < j < |keys| ==> keys[i] != keys[j]
    requires forall i :: 0 <= i < |h| ==> h[i].id in keys
    ensures SizeSum(h, keys) == |h|
    decreases |h|
  {
    if h == [] {
      EmptySizeSum(keys);
    } else {
      SizeSumCons(h, keys);
      CountDistinct(keys, h[0].id);
      assert forall i :: 0 <= i < |h[1..]| ==> h[1..][i] == h[i + 1];
      Partition(h[1..], keys);
    }
  }

  lemma {:induction false} EmptySizeSum(keys: seq<string>)
    ensures SizeSum([], keys) == 0
    decreases |keys|
  {
    if keys != [] {
      EmptySizeSum(keys[1..]);
    }
  }

  /** Every item lands in exactly its own id's group, so the group sizes add
      up to the length of the log, and there are as many groups as distinct
      ids. */
  lemma GroupSizesSum(h: seq<Item>)
    ensures SizeSum(h, DistinctIds(h)) == |h|
    ensures forall k :: k in DistinctIds(h) <==> k in GroupById(h)
    ensures forall k :: k in GroupById(h) ==> |GroupById(h)[k].details| == |ItemsWithId(h, k)|
  {
    var keys := DistinctIds(h);
    assert forall i :: 0 <= i < |h| ==> h[i].id in Ids(h);
    Partition(h, keys);
  }

  /** The comparator `(a, b) => b.timestamp - a.timestamp` places `x` no
      later than `y` when `x` is at least as recent. */
  predicate NewestFirst(s: seq<Item>)
  {
    forall i, j :: 0 <= i < j < |s| ==> s[i].timestamp >= s[j].timestamp
  }

  /** Insert `x` before the first item no more recent than it. */
  function Insert(x: Item, s: seq<Item>): (r: seq<Item>)
    requires NewestFirst(s)
    ensures NewestFirst(r)
    ensures multiset(r) == multiset(s) + multiset{x}
  {
    PlaceCounts(x, s);
    PlaceSorted(x, s);
    Place(x, s)
  }

  /** The insertion itself, on any list. */
  function Place(x: Item, s: seq<Item>): seq<Item>
  {
    if s == [] then [x]
    else if x.timestamp >= s[0].timestamp then [x] + s
    else [s[0]] + Place(x, s[1..])
  }

  lemma {:induction false} PlaceCounts(x: Item, s: seq<Item>)
    ensures multiset(Place(x, s)) == multiset(s) + multiset{x}
    decreases |s|
  {
    if s != [] && x.timestamp < s[0].timestamp {
      PlaceCounts(x, s[1..]);
      assert s == [s[0]] + s[1..];
    }
  }

  lemma {:induction false} PlaceSorted(x: Item, s: seq<Item>)
    requires NewestFirst(s)
    ensures NewestFirst(Place(x, s))
    decreases |s|
  {
    var r := Place(x, s);
    if s == [] {
    } else if x.timestamp >= s[0].timestamp {
      forall i, j | 0 <= i < j < |r| ensures r[i].timestamp >= r[j].timestamp {
        assert r[j] == s[j - 1];
        if i > 0 {
          assert r[i] == s[i - 1];
        }
      }
    } else {
      var rest := Place(x, s[1..]);
      assert NewestFirst(s[1..]) by {
        forall i, j | 0 <= i < j < |s[1..]| ensures s[1..][i].timestamp >= s[1..][j].timestamp {
          assert s[1..][i] == s[i + 1] && s[1..][j] == s[j + 1];
        }
      }
      PlaceSorted(x, s[1..]);
      PlaceCounts(x, s[1..]);
      HeadBoundsRest(x, s, rest);
      forall i, j | 0 <= i < j < |r| ensures r[i].timestamp >= r[j].timestamp {
        assert r[j] == rest[j - 1];
        if i > 0 {
          assert r[i] == rest[i - 1];
        }
      }
    }
  }

  lemma HeadBoundsRest(x: Item, s: seq<Item>, rest: seq<Item>)
    requires NewestFirst(s) && s != [] && x.timestamp < s[0].timestamp
    requires multiset(rest) == multiset(s[1..]) + multiset{x}
    ensures forall j :: 0 <= j < |rest| ==> rest[j].timestamp <= s[0].timestamp
  {
    forall j | 0 <= j < |rest| ensures rest[j].timestamp <= s[0].timestamp {
      var y := rest[j];
      assert y in multiset(rest);
      if y != x {
        assert y in multiset(s[1..]);
        var i :| 0 <= i < |s[1..]| && s[1..][i] == y;
        assert s[i + 1] == y;
      }
    }
  }

  /** `details.sort((a, b) => b.timestamp - a.timestamp)`: the same actions,
      newest first. */
  function SortNewestFirst(ds: seq<Item>): (r: seq<Item>)
    ensures NewestFirst(r)
    ensures multiset(r) == multiset(ds)
  {
    if ds == [] then []
    else
      assert ds == [ds[0]] + ds[1..];
      Insert(ds[0], SortNewestFirst(ds[1..]))
  }

  /** The items of `s` with timestamp `t`, in order. */
  function WithTimestamp(s: seq<Item>, t: int): seq<Item>
  {
    if s == [] then [] else (if s[0].timestamp == t then [s[0]] else []) + WithTimestamp(s[1..], t)
  }

  lemma WithTimestampCons(y: Item, s: seq<Item>, t: int)
    ensures WithTimestamp([y] + s, t) == (if y.timestamp == t then [y] else []) + WithTimestamp(s, t)
  {
    assert ([y] + s)[0] == y && ([y] + s)[1..] == s;
  }

  lemma {:induction false} PlaceStable(x: Item, s: seq<Item>, t: int)
    ensures WithTimestamp(Place(x, s), t) == (if x.timestamp == t then [x] else []) + WithTimestamp(s, t)
    decreases |s|
  {
    if s == [] {
      assert Place(x, s) == [x] + [];
      WithTimestampCons(x, [], t);
    } else if x.timestamp >= s[0].timestamp {
      assert Place(x, s) == [x] + s;
      WithTimestampCons(x, s, t);
    } else {
      PlaceStable(x, s[1..], t);
      PlaceBehindStable(x, s, t);
    }
  }

  /** The step of `PlaceStable` where `x` goes behind the head. */
  lemma PlaceBehindStable(x: Item, s: seq<Item>, t: int)
    requires s != [] && x.timestamp < s[0].timestamp
    requires WithTimestamp(Place(x, s[1..]), t) == (if x.timestamp == t then [x] else []) + WithTimestamp(s[1..], t)
    ensures WithTimestamp(Place(x, s), t) == (if x.timestamp == t then [x] else []) + WithTimestamp(s, t)
  {
    var tail := Place(x, s[1..]);
    var rest := WithTimestamp(s[1..], t);
    var hd := if s[0].timestamp == t then [s[0]] else [];
    var mine := if x.timestamp == t then [x] else [];
    assert WithTimestamp(Place(x, s), t) == hd + (mine + rest) by {
      assert Place(x, s) == [s[0]] + tail;
      WithTimestampCons(s[0], tail, t);
    }
    assert WithTimestamp(s, t) == hd + rest by {
      assert s == [s[0]] + s[1..];
      WithTimestampCons(s[0], s[1..], t);
    }
    assert hd == [] || mine == [];
    ItemsAssoc(hd, mine, rest);
    ItemsAssoc(mine, hd, rest);
    assert hd + mine == mine + hd;
  }

  lemma ItemsAssoc(a: seq<Item>, b: seq<Item>, c: seq<Item>)
    ensures a + (b + c) == (a + b) + c
  {
  }

  /** Array sort is stable, and so is this model of it: actions with the same
      timestamp keep their log order. */
  lemma {:induction false} SortStable(ds: seq<Item>, t: int)
    ensures WithTimestamp(SortNewestFirst(ds), t) == WithTimestamp(ds, t)
    decreases |ds|
  {
    if ds != [] {
      SortStable(ds[1..], t);
      PlaceStable(ds[0], SortNewestFirst(ds[1..]), t);
    }
  }

  /** One card of the page: the stream id, its header, and its actions
      newest first. */
  datatype Card = Card(streamId: string, companyName: string, name: string, actions: seq<Item>)

  /** The page's cards, one per id in order of first appearance, each
      headed by its id's first action. */
  function Cards(h: seq<Item>): (cards: seq<Card>)
    ensures |cards| == |DistinctIds(h)|
    ensures forall i :: 0 <= i < |cards| ==> cards[i].streamId == DistinctIds(h)[i]
    ensures forall i :: 0 <= i < |cards| ==>
      (NewestFirst(cards[i].actions) && multiset(cards[i].actions) == multiset(ItemsWithId(h, cards[i].streamId)))
    ensures forall i :: 0 <= i < |cards| ==>
      (|ItemsWithId(h, cards[i].streamId)| > 0
       && cards[i].companyName == ItemsWithId(h, cards[i].streamId)[0].companyName
       && cards[i].name == ItemsWithId(h, cards[i].streamId)[0].name)
  {
    var groups := GroupById(h);
    var cards := CardsOf(groups, DistinctIds(h));
    CardsHeaded(h, groups, DistinctIds(h), cards);
    cards
  }

  /** Cards built from a grouping carry the header of each id's first
      action. */
  lemma CardsHeaded(h: seq<Item>, groups: map<string, Group>, keys: seq<string>, cards: seq<Card>)
    requires Grouped(h, groups)
    requires forall i :: 0 <= i < |keys| ==> keys[i] in groups
    requires cards == CardsOf(groups, keys)
    ensures forall i :: 0 <= i < |cards| ==>
      (|ItemsWithId(h, cards[i].streamId)| > 0
       && cards[i].companyName == ItemsWithId(h, cards[i].streamId)[0].companyName
       && cards[i].name == ItemsWithId(h, cards[i].streamId)[0].name)
  {
    forall i | 0 <= i < |cards|
      ensures |ItemsWithId(h, cards[i].streamId)| > 0
      ensures cards[i].companyName == ItemsWithId(h, cards[i].streamId)[0].companyName
      ensures cards[i].name == ItemsWithId(h, cards[i].streamId)[0].name
    {
      var k := keys[i];
      assert cards[i].streamId == k;
      assert HeadedByFirst(groups[k]) && groups[k].details == ItemsWithId(h, k);
    }
  }

  function CardsOf(groups: map<string, Group>, keys: seq<string>): (cards: seq<Card>)
    requires forall i :: 0 <= i < |keys| ==> keys[i] in groups
    ensures |cards| == |keys|
    ensures forall i :: 0 <= i < |cards| ==>
      (cards[i].streamId == keys[i]
       && cards[i].companyName == groups[keys[i]].companyName && cards[i].name == groups[keys[i]].name
       && NewestFirst(cards[i].actions) && multiset(cards[i].actions) == multiset(groups[keys[i]].details))
  {
    if keys == [] then []
    else
      var g := groups[keys[0]];
      [Card(keys[0], g.companyName, g.name, SortNewestFirst(g.details))] + CardsOf(groups, keys[1..])
  }
}

=== FILE: local_player.dfy ===
/** The local MP3 player page of one radio profile: its gate on the
    profile's flags, the once-a-second tick that fires scheduled
    announcements through the crossfade machine, the page it renders, the
    playlist's wrap-around and the add form. */
module LocalPlayer {
  import opened Common
  import opened Text
  import opened Schedule
  import Subscription
  import opened Clock
  import opened Fade
  import opened Playback
  import Editing

  /** The profile record the page fetches. Dates are milliseconds since the
      epoch. */
  datatype Profile = Profile(
    name: string,
    companyName: string,
    subscriptionPlan: string,
    createdDate: int,
    expirationDate: int,
    blocked: bool,
    alarmBlocked: bool)

  /** The two audio elements exist only when the page renders the player:
      the profile has arrived and is not blocked. */
  predicate Mounted(profile: Option<Profile>)
  {
    profile.Some? && !profile.value.blocked
  }

  /** The early return of `playScheduledTrack`: nothing happens without a
      profile, with an alarm-blocked profile, or without the audio
      elements. */
  predicate Gate(profile: Option<Profile>)
  {
    profile.Some? && !profile.value.alarmBlocked && Mounted(profile)
  }

  /** Scheduled playback runs exactly for a present profile that is neither
      blocked nor alarm-blocked. */
  lemma GateIff(profile: Option<Profile>)
    ensures Gate(profile) <==> profile.Some? && !profile.value.blocked && !profile.value.alarmBlocked
    ensures profile.None? ==> !Gate(profile)
  {
  }

  /** One tick at second `now` behind a gate that is `open` or not: the
      clock text is compared with the schedule and the first matching
      entry's track is handed to the crossfade machine when the gate lets it
      through. */
  function Fire(open: bool, schedule: seq<Entry>, now: Second, m: Machine): (r: Outcome)
    ensures r.effects == []
    ensures !open ==> r == Outcome(m, [])
    ensures (forall j :: 0 <= j < |schedule| ==> schedule[j].time != Format(now)) ==> r == Outcome(m, [])
    ensures m.phase.Live? ==>
      (r.machine != m <==> open && exists j :: 0 <= j < |schedule| && schedule[j].time == Format(now))
    ensures r.machine != m ==>
      exists j :: 0 <= j < |schedule| && schedule[j].time == Format(now)
        && (forall i :: 0 <= i < j ==> schedule[i].time != Format(now))
        && r.machine == Machine(FadingOut(m.volume, schedule[j].track), m.volume)
  {
    match DueTrack(schedule, Format(now))
    case None => Outcome(m, [])
    case Some(t) => if open then Step(Local, m, Trigger(t)) else Outcome(m, [])
  }

  /** The tick as the page means it: gated on the profile it currently
      holds. */
  function Tick(profile: Option<Profile>, schedule: seq<Entry>, now: Second, m: Machine): (r: Outcome)
    ensures !Gate(profile) ==> r == Outcome(m, [])
    ensures m.phase.Live? ==>
      (r.machine != m <==> Gate(profile) && exists j :: 0 <= j < |schedule| && schedule[j].time == Format(now))
    ensures r.machine != m ==>
      exists j :: 0 <= j < |schedule| && schedule[j].time == Format(now)
        && (forall i :: 0 <= i < j ==> schedule[i].time != Format(now))
        && r.machine == Machine(FadingOut(m.volume, schedule[j].track), m.volume)
  {
    Fire(Gate(profile), schedule, now, m)
  }

  /** One line of the scheduled-tracks list. */
  datatype Row = Row(time: string, trackName: string, emphasised: bool)

  datatype Listing = AlarmBlockedNotice | ScheduledTracks(rows: seq<Row>)

  /** What the page shows. */
  datatype View =
    | LoadingNotice
    | BlockedNotice
    | PlayerView(daysLeft: int, profileButtonEnabled: bool, listing: Listing)

  /** The scheduled-tracks rows: each entry's time, its track without the
      "{id}-" prefix, bold when the page's `isNextToPlay` holds for it. */
  function Rows(id: string, schedule: seq<Entry>, now: Second): (rows: seq<Row>)
    ensures |rows| == |schedule|
    ensures forall i :: 0 <= i < |rows| ==> rows[i].time == schedule[i].time
    ensures forall i :: 0 <= i < |rows| ==> rows[i].trackName == StripProfilePrefix(schedule[i].track, id)
    ensures forall i :: 0 <= i < |rows| ==> rows[i].emphasised == IsNextToPlayAsWritten(schedule[i].time, now)
  {
    if schedule == [] then []
    else [Row(schedule[0].time, StripProfilePrefix(schedule[0].track, id), IsNextToPlayAsWritten(schedule[0].time, now))]
         + Rows(id, schedule[1..], now)
  }

  /** The page at second-of-day `now` (instant `instant`): a loading notice
      until the profile arrives, a notice for a blocked profile, otherwise
      the player with the days-left figure, a profile button disabled for an
      alarm-blocked profile, and the schedule list or the alarm-blocked
      notice. */
  function Render(id: string, profile: Option<Profile>, schedule: seq<Entry>, now: Second, instant: int): (v: View)
    ensures profile.None? <==> v == LoadingNotice
    ensures profile.Some? && profile.value.blocked <==> v == BlockedNotice
    ensures v.PlayerView? ==> v.profileButtonEnabled == !profile.value.alarmBlocked
    ensures v.PlayerView? && instant >= profile.value.createdDate ==>
      var elapsed := Subscription.PlanDays(profile.value.subscriptionPlan) - v.daysLeft;
      elapsed * Subscription.MillisPerDay <= instant - profile.value.createdDate
      < (elapsed + 1) * Subscription.MillisPerDay
    ensures v.PlayerView? && instant < profile.value.createdDate ==>
      v.daysLeft >= Subscription.PlanDays(profile.value.subscriptionPlan)
    ensures v.PlayerView? && instant < profile.value.createdDate ==>
      var ahead := v.daysLeft - Subscription.PlanDays(profile.value.subscriptionPlan);
      ahead * Subscription.MillisPerDay <= profile.value.createdDate - instant
      < (ahead + 1) * Subscription.MillisPerDay
    ensures v.PlayerView? && v.listing.ScheduledTracks? ==> v.listing.rows == Rows(id, schedule, now)
  {
    match profile
    case None => LoadingNotice
    case Some(p) =>
      if p.blocked then BlockedNotice
      else PlayerView(Subscription.DaysLeft(p.expirationDate, p.createdDate, p.subscriptionPlan, instant), !p.alarmBlocked,
                      if p.alarmBlocked then AlarmBlockedNotice else ScheduledTracks(Rows(id, schedule, now)))
  }

  /** A bold row with a canonical time is one whose tick comes within the
      next minute. */
  lemma BoldRowFiresSoon(id: string, schedule: seq<Entry>, now: Second, i: int)
    requires 0 <= i < |schedule| && Canonical(schedule[i].time)
    requires Rows(id, schedule, now)[i].emphasised
    ensures exists k: nat :: k <= 60 && Format(Later(now, k)) == schedule[i].time
  {
    AsWrittenImpliesIntended(schedule[i].time, now);
    NextToPlayIffFiresSoon(schedule[i].time, now);
  }

  /** The converse fails across midnight: at 23:59:30 the row for 00:00:10
      is not bold, though that entry fires 40 seconds later. */
  lemma MidnightRowNotBold(id: string, track: string)
    ensures !Rows(id, [Entry(track, "00:00:10")], 86370)[0].emphasised
    ensures exists k: nat :: k <= 60 && Format(Later(86370, k)) == "00:00:10"
  {
    MidnightEntryNotHighlighted();
    NextToPlayIffFiresSoon("00:00:10", 86370);
  }

  /** Scheduled playback is possible exactly when the page shows the
      schedule list. */
  lemma GateIffScheduleShown(id: string, profile: Option<Profile>, schedule: seq<Entry>, now: Second, instant: int)
    ensures Gate(profile) <==>
      Render(id, profile, schedule, now, instant).PlayerView? && Render(id, profile, schedule, now, instant).listing.ScheduledTracks?
  {
  }

  /** A row for one of the profile's own uploads shows the original file
      name. */
  lemma RowShowsOriginalName(id: string, schedule: seq<Entry>, now: Second, i: int, name: string)
    requires 0 <= i < |schedule| && schedule[i].track == id + "-" + name
    ensures Rows(id, schedule, now)[i].trackName == name
  {
    StripStored(id, name);
  }

  /** `(currentLocalTrackIndex + 1) % localTracks.length` when a local track
      ends: the playlist's next position, wrapping from the last track to
      the first; with an empty playlist the index is NaN (`None`) and
      nothing plays. */
  function NextTrackIndex(i: nat, n: nat): (r: Option<nat>)
    ensures r.Some? <==> n > 0
    ensures r.Some? ==> r.value < n
    ensures i + 1 < n ==> r == Some(i + 1)
    ensures n > 0 && i == n - 1 ==> r == Some(0)
  {
    if n == 0 then None
    else
      WrapFacts(i, n);
      Some((i + 1) % n)
  }

  lemma WrapFacts(i: nat, n: nat)
    requires n > 0
    ensures 0 <= (i + 1) % n < n
    ensures i + 1 < n ==> (i + 1) % n == i + 1
    ensures i + 1 == n ==> (i + 1) % n == 0
  {
  }

  /** `k` consecutive track ends from position `i`. */
  function AfterEnds(i: nat, n: nat, k: nat): Option<nat>
    decreases k
  {
    if k == 0 then Some(i)
    else match NextTrackIndex(i, n)
      case None => None
      case Some(j) => AfterEnds(j, n, k - 1)
  }

  /** One more track end after `k` of them. */
  lemma {:induction false} AfterEndsLast(i: nat, n: nat, k: nat)
    requires n > 0
    ensures AfterEnds(i, n, k).Some?
    ensures AfterEnds(i, n, k + 1) == NextTrackIndex(AfterEnds(i, n, k).value, n)
    decreases k
  {
    if k > 0 {
      AfterEndsLast(NextTrackIndex(i, n).value, n, k - 1);
    }
  }

  /** Starting from the first track, the playlist is played in order: the
      `k`-th track end moves to position `k`, and the `n`-th returns to the
      first track. */
  lemma {:induction false} PlaylistCycles(n: nat, k: nat)
    requires n > 0 && k <= n
    ensures k < n ==> AfterEnds(0, n, k) == Some(k)
    ensures k == n ==> AfterEnds(0, n, k) == Some(0)
    decreases k
  {
    if k > 0 {
      PlaylistCycles(n, k - 1);
      AfterEndsLast(0, n, k - 1);
    }
  }

  /** What the page holds while it runs: the profile and schedule of the
      latest render, and the profile the running tick interval captured.
      The interval is re-created only when the schedule changes, so its
      `playScheduledTrack` sees the profile of the render in which the
      schedule last changed. */
  datatype Session = Session(profile: Option<Profile>, schedule: seq<Entry>, tickProfile: Option<Profile>)

  /** The two requests issued on mount, answered in either order. */
  datatype Arrival = ProfileArrived(p: Profile) | ScheduleArrived(s: seq<Entry>)

  /** On mount neither response has arrived. */
  function Mount(): Session
  {
    Session(None, [], None)
  }

  /** A response arrives: the profile only re-renders the page, the schedule
      also re-creates the tick interval with the profile of that render. */
  function Arrive(ss: Session, a: Arrival): (r: Session)
    ensures a.ProfileArrived? ==> r.profile == Some(a.p) && r.schedule == ss.schedule && r.tickProfile == ss.tickProfile
    ensures a.ScheduleArrived? ==> r.schedule == a.s && r.profile == ss.profile && r.tickProfile == ss.profile
  {
    match a
    case ProfileArrived(p) => ss.(profile := Some(p))
    case ScheduleArrived(s) => ss.(schedule := s, tickProfile := ss.profile)
  }

  /** The gate as written: the profile tests read the captured profile, the
      audio-element tests read the current page. */
  predicate StaleGate(ss: Session)
  {
    ss.tickProfile.Some? && !ss.tickProfile.value.alarmBlocked && Mounted(ss.profile)
  }

  /** The tick as written. */
  function TickAsWritten(ss: Session, now: Second, m: Machine): (r: Outcome)
    ensures ss.tickProfile.None? ==> r == Outcome(m, [])
  {
    Fire(StaleGate(ss), ss.schedule, now, m)
  }

  /** When the schedule answers before the profile, the interval keeps the
      missing profile for the rest of the page's life: however often the
      profile is delivered afterwards, a matching tick does nothing, while
      the page's own profile would let it through. */
  lemma {:induction false} StaleProfileSuppressesSchedule(s: seq<Entry>, ps: seq<Profile>, now: Second, v: Volume)
    requires |ps| > 0 && !ps[|ps| - 1].blocked && !ps[|ps| - 1].alarmBlocked
    requires exists j :: 0 <= j < |s| && s[j].time == Format(now)
    ensures TickAsWritten(ProfilesArrive(Arrive(Mount(), ScheduleArrived(s)), ps), now, Machine(Live, v))
         == Outcome(Machine(Live, v), [])
    ensures Tick(ProfilesArrive(Arrive(Mount(), ScheduleArrived(s)), ps).profile, s, now, Machine(Live, v)).machine
         == Machine(FadingOut(v, DueTrack(s, Format(now)).value), v)
  {
    var ss := ProfilesArrive(Arrive(Mount(), ScheduleArrived(s)), ps);
    ProfilesArriveKeepTick(Arrive(Mount(), ScheduleArrived(s)), ps);
    assert ss.profile == Some(ps[|ps| - 1]) && ss.schedule == s && ss.tickProfile.None?;
  }

  /** A run of profile deliveries. */
  function ProfilesArrive(ss: Session, ps: seq<Profile>): Session
    decreases |ps|
  {
    if ps == [] then ss else ProfilesArrive(Arrive(ss, ProfileArrived(ps[0])), ps[1..])
  }

  /** Profile deliveries change the page's profile only: the schedule and
      the interval's captured profile stay. */
  lemma {:induction false} ProfilesArriveKeepTick(ss: Session, ps: seq<Profile>)
    ensures ProfilesArrive(ss, ps).schedule == ss.schedule
    ensures ProfilesArrive(ss, ps).tickProfile == ss.tickProfile
    ensures ps != [] ==> ProfilesArrive(ss, ps).profile == Some(ps[|ps| - 1])
    ensures ps == [] ==> ProfilesArrive(ss, ps).profile == ss.profile
    decreases |ps|
  {
    if ps != [] {
      ProfilesArriveKeepTick(Arrive(ss, ProfileArrived(ps[0])), ps[1..]);
      if |ps| > 1 {
        assert ps[1..][|ps| - 2] == ps[|ps| - 1];
      }
    }
  }

  /** When the interval captured the page's current profile the written
      gate and the intended one agree; that is the case when the profile
      answers first. */
  lemma TickAgreesWhenFresh(ss: Session, now: Second, m: Machine)
    requires ss.tickProfile == ss.profile
    ensures TickAsWritten(ss, now, m) == Tick(ss.profile, ss.schedule, now, m)
  {
  }

  lemma ProfileFirstIsFresh(p: Profile, s: seq<Entry>)
    ensures Arrive(Arrive(Mount(), ProfileArrived(p)), ScheduleArrived(s)).tickProfile == Some(p)
    ensures Arrive(Arrive(Mount(), ProfileArrived(p)), ScheduleArrived(s)).profile == Some(p)
  {
  }

  /** `handleAddTrack`: the new entry goes last, is posted to the profile's
      schedule, and the form is cleared. */
  function AddTrack(id: string, ed: Editing.Editor, reply: Reply): (r: Editing.Edit)
    ensures r.request == Post(ProfileSchedulePath(id), r.editor.schedule)
    ensures r.editor.schedule == Append(ed.schedule, Entry(ed.newTrack, ed.newTime))
    ensures r.editor.newTrack == "" && r.editor.newTime == ""
  {
    Editing.AddEntry(ProfileSchedulePath(id), ed, reply)
  }

  /** An entry just added fires at its time unless an earlier entry already
      has that time. */
  lemma AddedEntryFires(id: string, ed: Editing.Editor, reply: Reply, profile: Option<Profile>, now: Second)
    requires Gate(profile) && ed.newTime == Format(now)
    requires forall j :: 0 <= j < |ed.schedule| ==> ed.schedule[j].time != Format(now)
    ensures Tick(profile, AddTrack(id, ed, reply).editor.schedule, now, Machine(Live, Full)).machine.phase
         == FadingOut(Full, ed.newTrack)
  {
    var s := AddTrack(id, ed, reply).editor.schedule;
    DueTrackAfterAppend(ed.schedule, Entry(ed.newTrack, ed.newTime), Format(now));
    assert DueTrack(s, Format(now)) == Some(ed.newTrack);
  }
}

=== FILE: playback.dfy ===
/** The crossfade from the live feed to a scheduled announcement and back,
    as a state machine stepped by explicit events. Both players run it:
    the local MP3 player (which fades out from the current volume and fetches
    the track as a blob first) and the online radio player (which always
    fades out from full volume and points the announcement element at the
    track directly). The 200 ms interval timers are `FadeTimer` events, the
    audio element's callbacks are `CanPlay`, `Ended` and the failure events. */
module Playback {
  import opened Fade

  datatype Player = Local | Radio

  datatype Phase =
    | Live                                   // live source audible (or silent after a failure)
    | FadingOut(level: Volume, track: string) // fade-out interval running, `level` is its counter
    | Fetching(track: string)                // local player: blob request in flight
    | Loading(track: string)                 // announcement element loading, waiting for canplaythrough
    | Announcing(track: string)              // announcement playing
    | FadingIn(level: Volume)                // live resumed, fade-in interval running

  /** The phase, and the volume last written to the live audio element. */
  datatype Machine = Machine(phase: Phase, volume: Volume)

  datatype Event =
    | Trigger(track: string)  // a tick matched a schedule entry and the gate let it through
    | FadeTimer               // one firing of a fade's 200 ms interval
    | Fetched(ok: bool)       // the local player's blob request settled
    | CanPlay                 // canplaythrough on the announcement element
    | LoadFailed              // the announcement element could not load the track
    | PlayFailed              // play() on the announcement element was rejected
    | Ended                   // the announcement finished

  /** What the machine does to the outside world. */
  datatype Effect =
    | SetVolume(v: Volume)    // live element volume written
    | FetchTrack(track: string)
    | LoadTrack(track: string)
    | PlayAnnouncement
    | PlayLive

  datatype Outcome = Outcome(machine: Machine, effects: seq<Effect>)

  /** Where the fade-out's counter starts: the local player reads the live
      element's current volume, the radio player always starts at 1.0. */
  function FadeOutStart(p: Player, volume: Volume): Volume
  {
    if p == Local then volume else Full
  }

  /** The phase the fade-out's callback moves to. */
  function AfterFadeOut(p: Player, track: string): Phase
  {
    if p == Local then Fetching(track) else Loading(track)
  }

  /** The request the fade-out's callback issues. */
  function CallbackEffect(p: Player, track: string): Effect
  {
    if p == Local then FetchTrack(track) else LoadTrack(track)
  }

  /** The states the machine can be in: while the announcement is being
      fetched, loaded or played the live element is silent, and a fade-in
      writes exactly its counter. */
  ghost predicate Valid(p: Player, m: Machine)
  {
    match m.phase
    case Live => true
    case FadingOut(level, _) => p == Local ==> level == m.volume
    case Fetching(_) => p == Local && m.volume == 0
    case Loading(_) => m.volume == 0
    case Announcing(_) => m.volume == 0
    case FadingIn(level) => m.volume == level && level % Tenth == 0 && level < Full
  }

  /** One event. A trigger is acted on only while the live feed plays; events
      that do not belong to the current phase change nothing. */
  function Step(p: Player, m: Machine, e: Event): (r: Outcome)
    ensures Valid(p, m) ==> Valid(p, r.machine)
    ensures r.machine.volume == m.volume || SetVolume(r.machine.volume) in r.effects
    ensures Valid(p, m) && PlayAnnouncement in r.effects ==> r.machine.volume == 0 && m.volume == 0
    ensures PlayLive in r.effects ==> m.phase.Announcing? && e == Ended && r.machine.phase == FadingIn(0)
    ensures m.phase.Live? && !e.Trigger? ==> r == Outcome(m, [])
    ensures m.phase.Live? && e.Trigger? ==>
      r.effects == [] && r.machine.volume == m.volume
      && r.machine.phase == FadingOut(FadeOutStart(p, m.volume), e.track)
    ensures !m.phase.Live? && e.Trigger? ==> r == Outcome(m, [])
  {
    Transition(p, m, e)
  }

  /** The body of `Step`, dispatched on the phase. `Run` and the lemmas
      about whole event sequences unfold this one, so they do not carry
      `Step`'s postconditions at every event. */
  function Transition(p: Player, m: Machine, e: Event): Outcome
  {
    match m.phase
    case Live => OnLive(p, m, e)
    case FadingOut(level, t) => if e == FadeTimer then FadeOutTick(p, m.volume, level, t) else Outcome(m, [])
    case Fetching(t) => if e.Fetched? then OnFetched(m, t, e.ok) else Outcome(m, [])
    case Loading(t) => OnLoading(m, t, e)
    case Announcing(t) => OnAnnouncing(m, t, e)
    case FadingIn(level) => if e == FadeTimer then FadeInTick(m.volume, level) else Outcome(m, [])
  }

  /** While live, only a trigger does anything: it starts the fade-out. */
  function OnLive(p: Player, m: Machine, e: Event): Outcome
  {
    if e.Trigger? then Outcome(Machine(FadingOut(FadeOutStart(p, m.volume), e.track), m.volume), [])
    else Outcome(m, [])
  }

  /** One firing of the fade-out interval. */
  function FadeOutTick(p: Player, volume: Volume, level: Volume, t: string): Outcome
  {
    if level > Tenth then
      Outcome(Machine(FadingOut(level - Tenth, t), level - Tenth), [SetVolume(level - Tenth)])
    else
      Outcome(Machine(AfterFadeOut(p, t), 0), [SetVolume(0), CallbackEffect(p, t)])
  }

  /** The local player's blob request settles: on success the announcement
      element is pointed at it, on failure only an error is logged. */
  function OnFetched(m: Machine, t: string, ok: bool): Outcome
  {
    if ok then Outcome(Machine(Loading(t), m.volume), [LoadTrack(t)])
    else Outcome(Machine(Live, m.volume), [])
  }

  function OnLoading(m: Machine, t: string, e: Event): Outcome
  {
    if e == CanPlay then Outcome(Machine(Announcing(t), m.volume), [PlayAnnouncement])
    else if e == LoadFailed then Outcome(Machine(Live, m.volume), [])
    else Outcome(m, [])
  }

  /** The announcement ends: fade-in starts and live playback is resumed. */
  function OnAnnouncing(m: Machine, t: string, e: Event): Outcome
  {
    if e == Ended then Outcome(Machine(FadingIn(0), m.volume), [PlayLive])
    else if e == PlayFailed then Outcome(Machine(Live, m.volume), [])
    else Outcome(m, [])
  }

  /** One firing of the fade-in interval. */
  function FadeInTick(volume: Volume, level: Volume): Outcome
  {
    if level < Full - Tenth then
      Outcome(Machine(FadingIn(level + Tenth), level + Tenth), [SetVolume(level + Tenth)])
    else
      Outcome(Machine(Live, Full), [SetVolume(Full)])
  }

  /** A sequence of events, with the effects of each step in order. */
  function Run(p: Player, m: Machine, es: seq<Event>): Outcome
    decreases |es|
  {
    if es == [] then Outcome(m, [])
    else
      var first := Transition(p, m, es[0]);
      var rest := Run(p, first.machine, es[1..]);
      Outcome(rest.machine, first.effects + rest.effects)
  }

  /** Running two event sequences one after the other. */
  lemma {:induction false} RunAppend(p: Player, m: Machine, a: seq<Event>, b: seq<Event>)
    ensures Run(p, m, a + b) ==
      Outcome(Run(p, Run(p, m, a).machine, b).machine,
              Run(p, m, a).effects + Run(p, Run(p, m, a).machine, b).effects)
    decreases |a|
  {
    if a != [] {
      assert (a + b)[0] == a[0];
      assert (a + b)[1..] == a[1..] + b;
      var first := Transition(p, m, a[0]);
      RunAppend(p, first.machine, a[1..], b);
      var ra := Run(p, first.machine, a[1..]);
      var rb := Run(p, ra.machine, b);
      assert Run(p, m, a) == Outcome(ra.machine, first.effects + ra.effects);
      assert Run(p, m, a + b) == Outcome(rb.machine, first.effects + (ra.effects + rb.effects));
      ConcatAssoc(first.effects, ra.effects, rb.effects);
    } else {
      assert a + b == b;
    }
  }

  /** Every reachable state stays valid. */
  lemma {:induction false} RunPreservesValid(p: Player, m: Machine, es: seq<Event>)
    requires Valid(p, m)
    ensures Valid(p, Run(p, m, es).machine)
    decreases |es|
  {
    if es != [] {
      RunPreservesValid(p, Step(p, m, es[0]).machine, es[1..]);
    }
  }

  /** Composing two runs whose outcomes are known. */
  lemma RunThen(p: Player, m: Machine, a: seq<Event>, b: seq<Event>, ra: Outcome, rb: Outcome)
    requires Run(p, m, a) == ra && Run(p, ra.machine, b) == rb
    ensures Run(p, m, a + b) == Outcome(rb.machine, ra.effects + rb.effects)
  {
    RunAppend(p, m, a, b);
  }

  /** A trigger while live starts the fade-out at the player's starting level
      without touching the volume. */
  lemma TriggerRun(p: Player, v: Volume, t: string)
    ensures Run(p, Machine(Live, v), [Trigger(t)]) == Outcome(Machine(FadingOut(FadeOutStart(p, v), t), v), [])
  {
    assert [Trigger(t)] == [Trigger(t)] + [];
    RunCons(p, Machine(Live, v), Trigger(t), []);
  }

  /** `n` firings of a fade interval. */
  function Timers(n: nat): (es: seq<Event>)
    ensures |es| == n
  {
    if n == 0 then [] else [FadeTimer] + Timers(n - 1)
  }

  /** Running one event and then the rest. */
  lemma RunCons(p: Player, m: Machine, e: Event, es: seq<Event>)
    ensures Run(p, m, [e] + es) ==
      Outcome(Run(p, Transition(p, m, e).machine, es).machine, Transition(p, m, e).effects + Run(p, Transition(p, m, e).machine, es).effects)
  {
    assert ([e] + es)[0] == e;
    assert ([e] + es)[1..] == es;
  }

  /** The effects of a fade-out from `level`, one write per timer firing and
      the callback's request after the final write. */
  function FadeOutEffects(p: Player, level: Volume, t: string): seq<Effect>
    decreases level
  {
    if level > Tenth then [SetVolume(level - Tenth)] + FadeOutEffects(p, level - Tenth, t)
    else [SetVolume(0), CallbackEffect(p, t)]
  }

  /** One volume write per value, in order. */
  function Writes(vs: seq<Volume>): (es: seq<Effect>)
    ensures |es| == |vs|
  {
    if vs == [] then [] else [SetVolume(vs[0])] + Writes(vs[1..])
  }

  /** The `i`-th effect of `Writes(vs)` writes the `i`-th volume. */
  lemma {:induction false} WritesAt(vs: seq<Volume>, i: int)
    requires 0 <= i < |vs|
    ensures Writes(vs)[i] == SetVolume(vs[i])
    decreases i
  {
    if i > 0 {
      WritesAt(vs[1..], i - 1);
    }
  }

  lemma ConcatAssoc(a: seq<Effect>, b: seq<Effect>, c: seq<Effect>)
    ensures a + (b + c) == (a + b) + c
  {
  }

  lemma WritesCons(v: Volume, vs: seq<Volume>)
    ensures Writes([v] + vs) == [SetVolume(v)] + Writes(vs)
  {
    assert ([v] + vs)[1..] == vs;
  }

  /** The first write of a fade-out above one step, then the rest. */
  lemma FadeOutWritesCons(level: Volume)
    requires level > Tenth
    ensures Writes(FadeOut(level)) == [SetVolume(level - Tenth)] + Writes(FadeOut(level - Tenth))
  {
    assert FadeOut(level) == [level - Tenth] + FadeOut(level - Tenth);
    WritesCons(level - Tenth, FadeOut(level - Tenth));
  }

  lemma {:induction false} FadeOutEffectsAreRamp(p: Player, level: Volume, t: string)
    ensures FadeOutEffects(p, level, t) == Writes(FadeOut(level)) + [CallbackEffect(p, t)]
    decreases level
  {
    if level > Tenth {
      var w := [SetVolume(level - Tenth)];
      var rest := Writes(FadeOut(level - Tenth));
      var cb := [CallbackEffect(p, t)];
      assert FadeOutEffects(p, level - Tenth, t) == rest + cb by {
        FadeOutEffectsAreRamp(p, level - Tenth, t);
      }
      assert FadeOutEffects(p, level, t) == w + (rest + cb);
      assert Writes(FadeOut(level)) == w + rest by {
        FadeOutWritesCons(level);
      }
      ConcatAssoc(w, rest, cb);
    } else {
      assert FadeOut(level) == [0];
      assert Writes([0]) == [SetVolume(0)];
    }
  }

  /** The machine's fade-out writes exactly the `FadeOut` ramp, reaches 0,
      and only then runs the callback, once. */
  lemma {:induction false} FadeOutRun(p: Player, level: Volume, t: string, v: Volume)
    ensures Run(p, Machine(FadingOut(level, t), v), Timers(|FadeOut(level)|)) ==
      Outcome(Machine(AfterFadeOut(p, t), 0), FadeOutEffects(p, level, t))
    decreases level
  {
    var m := Machine(FadingOut(level, t), v);
    var ts := Timers(|FadeOut(level)| - 1);
    assert Timers(|FadeOut(level)|) == [FadeTimer] + ts;
    RunCons(p, m, FadeTimer, ts);
    if level > Tenth {
      assert Transition(p, m, FadeTimer) == Outcome(Machine(FadingOut(level - Tenth, t), level - Tenth), [SetVolume(level - Tenth)]);
      FadeOutRun(p, level - Tenth, t, level - Tenth);
    } else {
      assert Transition(p, m, FadeTimer) == Outcome(Machine(AfterFadeOut(p, t), 0), [SetVolume(0), CallbackEffect(p, t)]);
      assert ts == [];
    }
  }

  /** The effects of a fade-in from `level`: one write per timer firing. */
  function FadeInEffects(level: Volume): seq<Effect>
    decreases Full - level
  {
    if level < Full - Tenth then [SetVolume(level + Tenth)] + FadeInEffects(level + Tenth)
    else [SetVolume(Full)]
  }

  /** The first write of a fade-in below 0.9, then the rest. */
  lemma FadeInWritesCons(level: Volume)
    requires level < Full - Tenth
    ensures Writes(FadeInFrom(level)) == [SetVolume(level + Tenth)] + Writes(FadeInFrom(level + Tenth))
  {
    assert FadeInFrom(level) == [level + Tenth] + FadeInFrom(level + Tenth);
    WritesCons(level + Tenth, FadeInFrom(level + Tenth));
  }

  lemma {:induction false} FadeInEffectsAreRamp(level: Volume)
    ensures FadeInEffects(level) == Writes(FadeInFrom(level))
    decreases Full - level
  {
    if level < Full - Tenth {
      assert FadeInEffects(level + Tenth) == Writes(FadeInFrom(level + Tenth)) by {
        FadeInEffectsAreRamp(level + Tenth);
      }
      FadeInWritesCons(level);
    } else {
      assert FadeInFrom(level) == [Full];
      assert Writes([Full]) == [SetVolume(Full)];
    }
  }

  /** The machine's fade-in writes exactly the `FadeInFrom` ramp, ends at
      full volume, and returns to the live phase. */
  lemma {:induction false} FadeInRun(p: Player, level: Volume, v: Volume)
    ensures Run(p, Machine(FadingIn(level), v), Timers(|FadeInFrom(level)|)) ==
      Outcome(Machine(Live, Full), FadeInEffects(level))
    decreases Full - level
  {
    var m := Machine(FadingIn(level), v);
    var ts := Timers(|FadeInFrom(level)| - 1);
    assert Timers(|FadeInFrom(level)|) == [FadeTimer] + ts;
    RunCons(p, m, FadeTimer, ts);
    if level < Full - Tenth {
      assert Transition(p, m, FadeTimer) == Outcome(Machine(FadingIn(level + Tenth), level + Tenth), [SetVolume(level + Tenth)]);
      FadeInRun(p, level + Tenth, level + Tenth);
    } else {
      assert Transition(p, m, FadeTimer) == Outcome(Machine(Live, Full), [SetVolume(Full)]);
      assert ts == [];
    }
  }

  /** The events between the fade-out's callback and the announcement's end:
      the local player's blob request succeeds first, then the element
      becomes playable and eventually ends. */
  function AnnouncementEvents(p: Player): seq<Event>
  {
    if p == Local then [Fetched(true), CanPlay, Ended] else [CanPlay, Ended]
  }

  /** The effects of those events: the local player loads the fetched blob,
      then the announcement plays and live playback resumes. */
  function AnnouncementEffects(p: Player, t: string): seq<Effect>
  {
    if p == Local then [LoadTrack(t), PlayAnnouncement, PlayLive] else [PlayAnnouncement, PlayLive]
  }

  /** From the fade-out's callback to the start of the fade-in. */
  lemma AnnouncementRun(p: Player, t: string)
    ensures Run(p, Machine(AfterFadeOut(p, t), 0), AnnouncementEvents(p)) ==
      Outcome(Machine(FadingIn(0), 0), AnnouncementEffects(p, t))
  {
    var loading := Machine(Loading(t), 0);
    var playing := Machine(Announcing(t), 0);
    assert [Ended] == [Ended] + [];
    RunCons(p, playing, Ended, []);
    RunCons(p, loading, CanPlay, [Ended]);
    if p == Local {
      RunCons(p, Machine(Fetching(t), 0), Fetched(true), [CanPlay, Ended]);
    }
  }

  /** One full, successful announcement: live, fade out to silence, load,
      play, and on the announcement's end resume live and fade back in. */
  function CycleEvents(p: Player, v: Volume, t: string): seq<Event>
  {
    [Trigger(t)] + Timers(|FadeOut(FadeOutStart(p, v))|) + AnnouncementEvents(p) + Timers(|FadeIn()|)
  }

  /** From live through the whole fade-out to its callback. */
  lemma ThroughFadeOut(p: Player, v: Volume, t: string)
    ensures Run(p, Machine(Live, v), [Trigger(t)] + Timers(|FadeOut(FadeOutStart(p, v))|)) ==
      Outcome(Machine(AfterFadeOut(p, t), 0), FadeOutEffects(p, FadeOutStart(p, v), t))
  {
    var start := FadeOutStart(p, v);
    var e1 := FadeOutEffects(p, start, t);
    TriggerRun(p, v, t);
    FadeOutRun(p, start, t, v);
    RunThen(p, Machine(Live, v), [Trigger(t)], Timers(|FadeOut(start)|), Outcome(Machine(FadingOut(start, t), v), []),
            Outcome(Machine(AfterFadeOut(p, t), 0), e1));
    assert [] + e1 == e1;
  }

  /** From live through the fade-out and the announcement to the start of
      the fade-in. */
  lemma ThroughAnnouncement(p: Player, v: Volume, t: string)
    ensures Run(p, Machine(Live, v), [Trigger(t)] + Timers(|FadeOut(FadeOutStart(p, v))|) + AnnouncementEvents(p)) ==
      Outcome(Machine(FadingIn(0), 0), FadeOutEffects(p, FadeOutStart(p, v), t) + AnnouncementEffects(p, t))
  {
    ThroughFadeOut(p, v, t);
    AnnouncementRun(p, t);
    RunThen(p, Machine(Live, v), [Trigger(t)] + Timers(|FadeOut(FadeOutStart(p, v))|), AnnouncementEvents(p),
            Outcome(Machine(AfterFadeOut(p, t), 0), FadeOutEffects(p, FadeOutStart(p, v), t)),
            Outcome(Machine(FadingIn(0), 0), AnnouncementEffects(p, t)));
  }

  /** A successful announcement takes the machine from live at any volume
      back to live at full volume: the fade-out's writes and its callback,
      the announcement, then the fade-in's writes. */
  lemma AnnouncementCycle(p: Player, v: Volume, t: string)
    ensures Run(p, Machine(Live, v), CycleEvents(p, v, t)) ==
      Outcome(Machine(Live, Full),
              FadeOutEffects(p, FadeOutStart(p, v), t) + AnnouncementEffects(p, t) + FadeInEffects(0))
  {
    var a3 := [Trigger(t)] + Timers(|FadeOut(FadeOutStart(p, v))|) + AnnouncementEvents(p);
    ThroughAnnouncement(p, v, t);
    FadeInRun(p, 0, 0);
    RunThen(p, Machine(Live, v), a3, Timers(|FadeInFrom(0)|),
            Outcome(Machine(FadingIn(0), 0), FadeOutEffects(p, FadeOutStart(p, v), t) + AnnouncementEffects(p, t)),
            Outcome(Machine(Live, Full), FadeInEffects(0)));
  }

  /** With no further trigger, the live phase stays as it is and does nothing:
      in particular no fade-in runs and live playback is not restarted. */
  lemma {:induction false} LiveIsQuietWithoutTrigger(p: Player, v: Volume, es: seq<Event>)
    requires forall i :: 0 <= i < |es| ==> !es[i].Trigger?
    ensures Run(p, Machine(Live, v), es) == Outcome(Machine(Live, v), [])
    decreases |es|
  {
    if es != [] {
      LiveIsQuietWithoutTrigger(p, v, es[1..]);
    }
  }

  /** A failed blob request in the local player leaves the live element at
      volume 0: it returns to the live phase without a fade-in and without
      restarting live playback, and stays silent until another trigger. */
  lemma FetchFailureLeavesLiveSilent(t: string, es: seq<Event>)
    requires forall i :: 0 <= i < |es| ==> !es[i].Trigger?
    ensures Run(Local, Machine(Fetching(t), 0), [Fetched(false)] + es) == Outcome(Machine(Live, 0), [])
  {
    assert ([Fetched(false)] + es)[1..] == es;
    LiveIsQuietWithoutTrigger(Local, 0, es);
  }

  /** The same holds when the announcement element cannot load or play the
      track, in either player. */
  lemma AnnouncementFailureLeavesLiveSilent(p: Player, m: Machine, e: Event, es: seq<Event>)
    requires Valid(p, m)
    requires (m.phase.Loading? && e == LoadFailed) || (m.phase.Announcing? && e == PlayFailed)
    requires forall i :: 0 <= i < |es| ==> !es[i].Trigger?
    ensures Run(p, m, [e] + es) == Outcome(Machine(Live, 0), [])
  {
    assert ([e] + es)[1..] == es;
    LiveIsQuietWithoutTrigger(p, 0, es);
  }

  /** The first write of a fade-out: the radio player's is always 0.9, even
      when the live element was quieter, while the local player's never
      exceeds the volume it found. Either way it is the first value of the
      `FadeOut` ramp. */
  lemma FirstFadeWrite(p: Player, v: Volume, t: string)
    ensures |Run(p, Machine(Live, v), [Trigger(t), FadeTimer]).effects| >= 1
    ensures Run(p, Machine(Live, v), [Trigger(t), FadeTimer]).effects[0] == SetVolume(FadeOut(FadeOutStart(p, v))[0])
    ensures p == Radio ==> Run(p, Machine(Live, v), [Trigger(t), FadeTimer]).effects[0] == SetVolume(Full - Tenth)
    ensures p == Local ==> Run(p, Machine(Live, v), [Trigger(t), FadeTimer]).effects[0].v <= v
  {
    var start := FadeOutStart(p, v);
    var m1 := Machine(FadingOut(start, t), v);
    TriggerRun(p, v, t);
    assert [FadeTimer] == [FadeTimer] + [];
    RunCons(p, m1, FadeTimer, []);
    var r2 := Run(p, m1, [FadeTimer]);
    assert r2 == Transition(p, m1, FadeTimer);
    assert [Trigger(t), FadeTimer] == [Trigger(t)] + [FadeTimer];
    RunThen(p, Machine(Live, v), [Trigger(t)], [FadeTimer], Outcome(m1, []), r2);
  }
}

=== FILE: radio_player.dfy ===
/** The online radio player page: the same once-a-second tick as the local
    player but without any profile gate, the crossfade that always starts
    from full volume, and the add form posting to the shared schedule. */
module RadioPlayer {
  import opened Common
  import opened Schedule
  import opened Clock
  import opened Fade
  import opened Playback
  import Editing

  /** One tick at second `now`: the first entry whose time equals the clock
      text is handed to `playScheduledTrack`, which starts the fade-out
      unconditionally. */
  function Tick(schedule: seq<Entry>, now: Second, m: Machine): (r: Outcome)
    ensures r.effects == []
    ensures (forall j :: 0 <= j < |schedule| ==> schedule[j].time != Format(now)) ==> r == Outcome(m, [])
    ensures m.phase.Live? ==>
      (r.machine != m <==> exists j :: 0 <= j < |schedule| && schedule[j].time == Format(now))
    ensures r.machine != m ==>
      exists j :: 0 <= j < |schedule| && schedule[j].time == Format(now)
        && (forall i :: 0 <= i < j ==> schedule[i].time != Format(now))
        && r.machine == Machine(FadingOut(Full, schedule[j].track), m.volume)
  {
    match DueTrack(schedule, Format(now))
    case None => Outcome(m, [])
    case Some(t) => Step(Radio, m, Trigger(t))
  }

  /** A matching tick from the live feed starts the fade-out at 1.0,
      whatever volume the live element had. */
  lemma TickStartsAtFull(schedule: seq<Entry>, now: Second, v: Volume)
    requires exists j :: 0 <= j < |schedule| && schedule[j].time == Format(now)
    ensures Tick(schedule, now, Machine(Live, v)).machine.phase.FadingOut?
    ensures Tick(schedule, now, Machine(Live, v)).machine.phase.level == Full
  {
  }

  /** `handleAddTrack`: the new entry goes last, the whole list is posted to
      the shared schedule and the form is cleared; earlier entries are
      kept. */
  function AddTrack(ed: Editing.Editor, reply: Reply): (r: Editing.Edit)
    ensures r.request == Post(SharedSchedulePath, r.editor.schedule)
    ensures |r.editor.schedule| == |ed.schedule| + 1
    ensures forall i :: 0 <= i < |ed.schedule| ==> r.editor.schedule[i] == ed.schedule[i]
    ensures r.editor.schedule[|ed.schedule|] == Entry(ed.newTrack, ed.newTime)
    ensures r.editor.newTrack == "" && r.editor.newTime == ""
  {
    var r := Editing.AddEntry(SharedSchedulePath, ed, reply);
    assert forall i :: 0 <= i < |ed.schedule| ==> r.editor.schedule[i] == r.editor.schedule[..|ed.schedule|][i];
    r
  }

  /** Adding an entry cannot change which track an already-matching tick
      fires. */
  lemma AddKeepsEarlierMatch(ed: Editing.Editor, reply: Reply, now: Second, m: Machine)
    requires exists j :: 0 <= j < |ed.schedule| && ed.schedule[j].time == Format(now)
    ensures Tick(AddTrack(ed, reply).editor.schedule, now, m) == Tick(ed.schedule, now, m)
  {
    DueTrackAfterAppend(ed.schedule, Entry(ed.newTrack, ed.newTime), Format(now));
  }
}

=== FILE: radio_profile.dfy ===
/** The profile's management page: its schedule editor posting to the
    profile's own schedule, and the uploaded-track list whose entries are
    shown, offered and deleted by the name after the first hyphen. */
module RadioProfile {
  import opened Common
  import opened Text
  import opened Schedule
  import Editing

  /** `handleDeleteScheduleItem(index)`: the list without position `index`
      is posted; the page adopts it only when the server acknowledges. */
  function DeleteScheduleItem(id: string, ed: Editing.Editor, index: int, reply: Reply): (r: Editing.Edit)
    ensures r.request == Post(ProfileSchedulePath(id), RemoveAt(ed.schedule, index))
    ensures 0 <= index < |ed.schedule| ==> |r.request.body| == |ed.schedule| - 1
    ensures !(0 <= index < |ed.schedule|) ==> r.request.body == ed.schedule
    ensures reply == Acknowledged ==> r.editor.schedule == r.request.body && r.editor.message == Editing.SavedMessage
    ensures reply == Failed ==> r.editor.schedule == ed.schedule && r.editor.message == Editing.SaveFailedMessage
  {
    Editing.DeleteEntry(ProfileSchedulePath(id), ed, index, reply)
  }

  /** `handleAddTrack`: the new entry goes last and the whole list is posted
      to the profile's schedule; the form is cleared. */
  function AddTrack(id: string, ed: Editing.Editor, reply: Reply): (r: Editing.Edit)
    ensures r.request == Post(ProfileSchedulePath(id), r.editor.schedule)
    ensures |r.editor.schedule| == |ed.schedule| + 1
    ensures r.editor.schedule[..|ed.schedule|] == ed.schedule
    ensures r.editor.schedule[|ed.schedule|] == Entry(ed.newTrack, ed.newTime)
    ensures r.editor.newTrack == "" && r.editor.newTime == ""
  {
    Editing.AddEntry(ProfileSchedulePath(id), ed, reply)
  }

  /** What `handleDeleteTrack(track)` does: the request it sends and the
      status message it shows once the server has answered. */
  datatype TrackDeletion = TrackDeletion(request: Request<seq<Entry>>, message: string)

  /** `handleDeleteTrack(track)`: a delete request for the track's name after
      the first hyphen, below the profile's tracks URL; the message reports
      success on acknowledgement and failure otherwise. */
  function DeleteTrack(id: string, track: string, reply: Reply): (r: TrackDeletion)
    ensures r.request.Delete?
    ensures r.request.path == "/radio/" + id + "/tracks/" + AfterFirstHyphen(track)
    ensures reply == Acknowledged <==> r.message == "Track deleted successfully"
    ensures reply == Failed <==> r.message == "Failed to delete track"
  {
    var request := Delete("/radio/" + id + "/tracks/" + TrackName(track));
    match reply
    case Acknowledged => TrackDeletion(request, "Track deleted successfully")
    case Failed => TrackDeletion(request, "Failed to delete track")
  }

  /** For a track stored as "{prefix}-{name}" with a hyphen-free prefix, the
      delete request names exactly the original name, hyphens included,
      whatever the server answers. */
  lemma DeleteNamesStoredTrack(id: string, prefix: string, name: string, reply: Reply)
    requires '-' !in prefix
    ensures DeleteTrack(id, prefix + "-" + name, reply).request.path == "/radio/" + id + "/tracks/" + name
  {
    TrackNameOfStored(prefix, name);
  }

  /** One option of the add form's track select: the stored file name as
      the value, its name after the first hyphen as the caption. */
  datatype TrackOption = TrackOption(value: string, caption: string)

  /** The select's options after the blank "Select Track" option, one per
      uploaded track in list order. */
  function TrackOptions(tracks: seq<string>): (opts: seq<TrackOption>)
    ensures |opts| == |tracks|
    ensures forall i :: 0 <= i < |opts| ==> opts[i].value == tracks[i] && opts[i].caption == AfterFirstHyphen(tracks[i])
  {
    if tracks == [] then [] else [TrackOption(tracks[0], TrackName(tracks[0]))] + TrackOptions(tracks[1..])
  }

  /** The uploaded-tracks list shows each track's name after the first
      hyphen, in list order. */
  function TrackLabels(tracks: seq<string>): (labels: seq<string>)
    ensures |labels| == |tracks|
    ensures forall i :: 0 <= i < |labels| ==> labels[i] == AfterFirstHyphen(tracks[i])
  {
    if tracks == [] then [] else [TrackName(tracks[0])] + TrackLabels(tracks[1..])
  }

  /** Choosing an option and adding puts the stored file name, not the
      label, into the schedule. */
  lemma AddStoresOptionValue(id: string, ed: Editing.Editor, tracks: seq<string>, i: int, reply: Reply)
    requires 0 <= i < |tracks| && ed.newTrack == TrackOptions(tracks)[i].value
    ensures AddTrack(id, ed, reply).editor.schedule[|ed.schedule|].track == tracks[i]
  {
  }

  /** A label without a hyphen in the stored name is empty, and the labels
      of the list and the select agree. */
  lemma LabelsAgree(tracks: seq<string>, i: int)
    requires 0 <= i < |tracks|
    ensures TrackLabels(tracks)[i] == TrackOptions(tracks)[i].caption
    ensures '-' !in tracks[i] ==> TrackLabels(tracks)[i] == ""
  {
  }

  /** The delete button beside a listed track requests exactly the name the
      list shows for it. */
  lemma DeleteRequestsShownName(id: string, tracks: seq<string>, i: int, reply: Reply)
    requires 0 <= i < |tracks|
    ensures DeleteTrack(id, tracks[i], reply).request.path == "/radio/" + id + "/tracks/" + TrackLabels(tracks)[i]
  {
  }
}

=== FILE: schedule.dfy ===
/** The schedule every player and editor works on: an ordered list of
    `{ track, time }` entries, where `time` is the clock text ("HH:MM:SS")
    at which the track should interrupt the live feed. */
module Schedule {
  import opened Common

  datatype Entry = Entry(track: string, time: string)

  /** The URL of one radio profile's own schedule. */
  function ProfileSchedulePath(id: string): string
  {
    "/radio/" + id + "/schedule"
  }

  /** The URL of the schedule shared by the online radio player and the
      upload page. */
  const SharedSchedulePath: string := "/schedule"

  /** `[...schedule, entry]`: the new entry goes last. */
  function Append(s: seq<Entry>, e: Entry): (r: seq<Entry>)
    ensures |r| == |s| + 1
    ensures r[..|s|] == s && r[|s|] == e
  {
    s + [e]
  }

  /** `s.filter((_, i) => i !== index)` walked from position `offset`: every
      element whose position differs from `index` is kept, in order. */
  function FilterOutIndex<T>(s: seq<T>, index: int, offset: int): (r: seq<T>)
    ensures offset <= index < offset + |s| ==> r == s[..index - offset] + s[index - offset + 1..]
    ensures !(offset <= index < offset + |s|) ==> r == s
    decreases |s|
  {
    if s == [] then []
    else (if offset == index then [] else [s[0]]) + FilterOutIndex(s[1..], index, offset + 1)
  }

  /** Delete-by-index as the editors write it: exactly position `index` is
      removed when it exists, and the list is returned unchanged otherwise. */
  function RemoveAt<T>(s: seq<T>, index: int): (r: seq<T>)
    ensures 0 <= index < |s| ==> |r| == |s| - 1
    ensures 0 <= index < |s| ==> forall i :: 0 <= i < index ==> r[i] == s[i]
    ensures 0 <= index < |s| ==> forall i :: index <= i < |r| ==> r[i] == s[i + 1]
    ensures !(0 <= index < |s|) ==> r == s
  {
    FilterOutIndex(s, index, 0)
  }

  /** Deleting the entry just appended restores the schedule. */
  lemma RemoveAppended(s: seq<Entry>, e: Entry)
    ensures RemoveAt(Append(s, e), |s|) == s
  {
  }

  /** Removing position k and the elements kept are related by a multiset
      identity: the removed element plus the result is the original. */
  lemma RemoveAtIsPermutationMinusOne<T>(s: seq<T>, index: int)
    requires 0 <= index < |s|
    ensures multiset(RemoveAt(s, index)) + multiset{s[index]} == multiset(s)
  {
    assert s == s[..index] + [s[index]] + s[index + 1..];
  }

  /** `schedule.find(track => track.time === now)` by position: the first
      entry whose time text equals `clock`, or `None` when no entry does. */
  function FirstMatch(s: seq<Entry>, clock: string): (r: Option<nat>)
    ensures r.Some? ==> r.value < |s| && s[r.value].time == clock
    ensures r.Some? ==> forall j :: 0 <= j < r.value ==> s[j].time != clock
    ensures r.None? <==> forall j :: 0 <= j < |s| ==> s[j].time != clock
  {
    if s == [] then None
    else if s[0].time == clock then Some(0)
    else match FirstMatch(s[1..], clock)
      case None => None
      case Some(i) => Some(i + 1)
  }

  /** The track a tick at `clock` fires, if any. */
  function DueTrack(s: seq<Entry>, clock: string): (r: Option<string>)
    ensures r.Some? <==> exists j :: 0 <= j < |s| && s[j].time == clock
    ensures r.Some? ==> r.value == s[FirstMatch(s, clock).value].track
  {
    match FirstMatch(s, clock)
    case None => None
    case Some(i) => Some(s[i].track)
  }

  /** Appending cannot change which entry a tick fires when some earlier
      entry already matches; it only adds a match when none existed. */
  lemma DueTrackAfterAppend(s: seq<Entry>, e: Entry, clock: string)
    ensures DueTrack(s, clock).Some? ==> DueTrack(Append(s, e), clock) == DueTrack(s, clock)
    ensures DueTrack(s, clock).None? ==>
      DueTrack(Append(s, e), clock) == (if e.time == clock then Some(e.track) else None)
  {
    var t := Append(s, e);
    match FirstMatch(s, clock)
    case Some(i) =>
      assert t[i] == s[i];
      assert forall j :: 0 <= j < i ==> t[j] == s[j];
    case None =>
      assert forall j :: 0 <= j < |s| ==> t[j] == s[j];
      if e.time == clock {
        assert t[|s|] == e;
      }
  }
}

=== FILE: subscription.dfy ===
/** Subscription day arithmetic of the local player: the plan names the
    profile forms offer, the day count each plan buys, and the "days left to
    expire" figure shown on the player. Instants are milliseconds since the
    epoch. */
module Subscription {
  import opened Common

  /** The plans the profile forms offer. */
  datatype Plan = OneDay | OneMonth | ThreeMonths | SixMonths | OneYear

  /** The option text (and stored value) of each plan. */
  function Label(p: Plan): string
  {
    match p
    case OneDay => "1 Day"
    case OneMonth => "1 Month"
    case ThreeMonths => "3 Months"
    case SixMonths => "6 Months"
    case OneYear => "1 Year"
  }

  /** The fixed day count of each plan. */
  function Days(p: Plan): nat
  {
    match p
    case OneDay => 1
    case OneMonth => 30
    case ThreeMonths => 90
    case SixMonths => 180
    case OneYear => 365
  }

  /** The plan options of the add and edit forms, in the order shown. */
  const PlanOptions: seq<string> := ["1 Day", "1 Month", "3 Months", "6 Months", "1 Year"]

  /** Every option is the label of exactly one plan, and every plan is offered. */
  lemma PlanOptionsAreLabels()
    ensures forall p: Plan :: Label(p) in PlanOptions
    ensures forall i :: 0 <= i < |PlanOptions| ==> exists p: Plan :: Label(p) == PlanOptions[i]
    ensures forall p: Plan, q: Plan :: Label(p) == Label(q) ==> p == q
  {
    assert Label(OneDay) == PlanOptions[0];
    assert Label(OneMonth) == PlanOptions[1];
    assert Label(ThreeMonths) == PlanOptions[2];
    assert Label(SixMonths) == PlanOptions[3];
    assert Label(OneYear) == PlanOptions[4];
  }

  /** The `switch (subscriptionPlan)` of `getDaysLeft`: the plan's day count
      for one of the five option strings, 0 for anything else. */
  function PlanDays(plan: string): (days: nat)
    ensures forall p: Plan :: plan == Label(p) ==> days == Days(p)
    ensures days > 0 <==> plan in PlanOptions
    ensures days in {0, 1, 30, 90, 180, 365}
  {
    if plan == "1 Day" then 1
    else if plan == "1 Month" then 30
    else if plan == "3 Months" then 90
    else if plan == "6 Months" then 180
    else if plan == "1 Year" then 365
    else 0
  }

  const MillisPerDay: int := 86_400_000

  /** date-fns `differenceInDays(later, earlier)`: the number of whole days
      between the two instants, truncated toward zero (negative when `later`
      is before `earlier`). */
  function DifferenceInDays(later: int, earlier: int): (d: int)
    ensures later >= earlier ==> d >= 0 && d * MillisPerDay <= later - earlier < (d + 1) * MillisPerDay
    ensures later < earlier ==> d <= 0 && -d * MillisPerDay <= earlier - later < (-d + 1) * MillisPerDay
  {
    if later >= earlier then (later - earlier) / MillisPerDay
    else -((earlier - later) / MillisPerDay)
  }

  /** `getDaysLeft(expirationDate, createdDate, subscriptionPlan)` evaluated
      at instant `now`: the plan's day count minus the whole days elapsed
      since the profile was created. The expiration date is an argument but
      plays no part. */
  function DaysLeft(expiration: int, created: int, plan: string, now: int): (left: int)
    ensures now >= created ==>
      (PlanDays(plan) - left) * MillisPerDay <= now - created < (PlanDays(plan) - left + 1) * MillisPerDay
    ensures now < created ==> left >= PlanDays(plan)
    ensures now < created ==>
      (left - PlanDays(plan)) * MillisPerDay <= created - now < (left - PlanDays(plan) + 1) * MillisPerDay
  {
    PlanDays(plan) - DifferenceInDays(now, created)
  }

  /** The figure does not depend on the stored expiration date. */
  lemma DaysLeftIgnoresExpiration(e1: int, e2: int, created: int, plan: string, now: int)
    ensures DaysLeft(e1, created, plan, now) == DaysLeft(e2, created, plan, now)
  {
  }

  /** Whole days elapsed never decrease as time moves forward. */
  lemma DifferenceInDaysMonotone(a: int, b: int, earlier: int)
    requires a <= b
    ensures DifferenceInDays(a, earlier) <= DifferenceInDays(b, earlier)
  {
  }

  /** Days left never increase as `now` advances. */
  lemma DaysLeftNonIncreasing(expiration: int, created: int, plan: string, now1: int, now2: int)
    requires now1 <= now2
    ensures DaysLeft(expiration, created, plan, now2) <= DaysLeft(expiration, created, plan, now1)
  {
    DifferenceInDaysMonotone(now1, now2, created);
  }

  /** On the creation instant the full plan is left; exactly one plan length
      later the figure is 0, and a day after that it is -1. */
  lemma DaysLeftOverPlan(expiration: int, created: int, p: Plan)
    ensures DaysLeft(expiration, created, Label(p), created) == Days(p)
    ensures DaysLeft(expiration, created, Label(p), created + Days(p) * MillisPerDay) == 0
    ensures DaysLeft(expiration, created, Label(p), created + (Days(p) + 1) * MillisPerDay) == -1
  {
  }
}

=== FILE: text.dfy ===
/** String helpers the components use on track names: JavaScript's
    `split`/`join` on a one-character separator, the "after the first hyphen"
    track name, and `String.prototype.replace` with a string pattern. */
module Text {
  import opened Common

  /** Index of the first occurrence of `c` in `s`. */
  function FirstIndexOf(s: string, c: char): (i: nat)
    requires c in s
    ensures i < |s| && s[i] == c
    ensures c !in s[..i]
  {
    if s[0] == c then 0 else 1 + FirstIndexOf(s[1..], c)
  }

  /** `s.split(sep)`: the pieces between separators, in order; a string without
      a separator is one piece, and so is the empty string. */
  function Split(s: string, sep: char): (parts: seq<string>)
    ensures |parts| >= 1
    ensures forall i :: 0 <= i < |parts| ==> sep !in parts[i]
    decreases |s|
  {
    if sep !in s then [s]
    else
      var i := FirstIndexOf(s, sep);
      [s[..i]] + Split(s[i + 1..], sep)
  }

  /** `parts.join(sep)`: the pieces with one separator between neighbours. */
  function Join(parts: seq<string>, sep: char): string
  {
    if |parts| == 0 then ""
    else if |parts| == 1 then parts[0]
    else parts[0] + [sep] + Join(parts[1..], sep)
  }

  /** Joining the pieces of a split gives back the original string. */
  lemma {:induction false} JoinSplit(s: string, sep: char)
    ensures Join(Split(s, sep), sep) == s
    decreases |s|
  {
    if sep in s {
      var i := FirstIndexOf(s, sep);
      var rest := s[i + 1..];
      var tail := Split(rest, sep);
      var parts := [s[..i]] + tail;
      assert Split(s, sep) == parts;
      assert |parts| >= 2 && parts[0] == s[..i] && parts[1..] == tail;
      assert Join(parts, sep) == s[..i] + [sep] + Join(tail, sep);
      JoinSplit(rest, sep);
      assert s == s[..i] + [sep] + rest;
    }
  }

  /** A leading piece without the separator splits off as the first part. */
  lemma SplitLeading(a: string, sep: char, rest: string)
    requires sep !in a
    ensures Split(a + [sep] + rest, sep) == [a] + Split(rest, sep)
  {
    var s := a + [sep] + rest;
    assert s[|a|] == sep;
    var i := FirstIndexOf(s, sep);
    assert s[..i + 1][|a|] == sep;
    assert i == |a|;
    assert s[..i] == a;
    assert s[i + 1..] == rest;
  }

  /** A reference definition of "the name after the profile prefix": the text
      after the first hyphen, or the empty string when there is none. */
  function AfterFirstHyphen(s: string): string
  {
    if '-' in s then s[FirstIndexOf(s, '-') + 1..] else ""
  }

  /** The track name as RadioProfile computes it:
      `track.split('-').slice(1).join('-')`. */
  function TrackName(track: string): (name: string)
    ensures name == AfterFirstHyphen(track)
  {
    SplitTail(track);
    Join(Split(track, '-')[1..], '-')
  }

  /** Dropping the first piece of a split and joining the rest gives the text
      after the first separator. */
  lemma SplitTail(s: string)
    ensures Join(Split(s, '-')[1..], '-') == AfterFirstHyphen(s)
  {
    if '-' in s {
      var rest := s[FirstIndexOf(s, '-') + 1..];
      JoinSplit(rest, '-');
      assert Split(s, '-')[1..] == Split(rest, '-');
    }
  }

  /** Stored files are named "{profileId}-{originalName}"; when the prefix has
      no hyphen, the track name is exactly the original name, whatever hyphens
      it contains. */
  lemma TrackNameOfStored(prefix: string, name: string)
    requires '-' !in prefix
    ensures TrackName(prefix + "-" + name) == name
  {
    var s := prefix + "-" + name;
    assert s[|prefix|] == '-';
    var i := FirstIndexOf(s, '-');
    assert s[..i + 1][|prefix|] == '-';
    assert i == |prefix|;
    assert s[i + 1..] == name;
  }

  /** `s[i..i+|pat|] == pat`: `pat` occurs in `s` at position `i`. */
  predicate OccursAt(s: string, pat: string, i: nat)
  {
    i + |pat| <= |s| && s[i..i + |pat|] == pat
  }

  /** The leftmost occurrence of `pat` in `s` at or after position `from`. */
  function FindFrom(s: string, pat: string, from: nat): (r: Option<nat>)
    requires from <= |s|
    ensures r.Some? ==> from <= r.value && OccursAt(s, pat, r.value)
    ensures r.Some? ==> forall j :: from <= j < r.value ==> !OccursAt(s, pat, j)
    ensures r.None? ==> forall j :: from <= j <= |s| ==> !OccursAt(s, pat, j)
    decreases |s| - from
  {
    if OccursAt(s, pat, from) then Some(from)
    else if from == |s| then None
    else FindFrom(s, pat, from + 1)
  }

  /** `s.replace(pat, rep)` with a string pattern: only the leftmost
      occurrence is replaced; without an occurrence the string is unchanged. */
  function ReplaceFirst(s: string, pat: string, rep: string): (r: string)
    ensures (forall j :: 0 <= j <= |s| ==> !OccursAt(s, pat, j)) ==> r == s
    ensures forall i :: 0 <= i <= |s| && OccursAt(s, pat, i) && (forall j :: 0 <= j < i ==> !OccursAt(s, pat, j))
              ==> r == s[..i] + rep + s[i + |pat|..]
  {
    match FindFrom(s, pat, 0)
    case None => s
    case Some(i) => s[..i] + rep + s[i + |pat|..]
  }

  /** The display name LocalPlayer shows for a scheduled track:
      `item.track.replace(`${id}-`, '')`. */
  function StripProfilePrefix(track: string, id: string): string
  {
    ReplaceFirst(track, id + "-", "")
  }

  /** Stripping a profile's prefix from one of its stored tracks gives back the
      original name, and agrees with `TrackName` when the id has no hyphen. */
  lemma StripStored(id: string, name: string)
    ensures StripProfilePrefix(id + "-" + name, id) == name
    ensures '-' !in id ==> StripProfilePrefix(id + "-" + name, id) == TrackName(id + "-" + name)
  {
    var s := id + "-" + name;
    assert OccursAt(s, id + "-", 0) by {
      assert s[0..|id| + 1] == id + "-";
    }
    assert s[|id + "-"|..] == name;
    if '-' !in id {
      TrackNameOfStored(id, name);
    }
  }

  /** A track that does not contain the profile's prefix is shown unchanged. */
  lemma StripForeign(track: string, id: string)
    requires forall j :: 0 <= j <= |track| ==> !OccursAt(track, id + "-", j)
    ensures StripProfilePrefix(track, id) == track
  {
  }
}

=== FILE: upload_track.dfy ===
/** The upload page's schedule list: delete by index against the shared
    schedule, committed only on the server's acknowledgement. */
module UploadTrack {
  import opened Common
  import opened Schedule
  import Editing

  /** `handleDelete(index)`: the list without position `index` is posted
      to the shared schedule; on acknowledgement it becomes the page's list
      and the success message is shown, on failure the list is kept and the
      failure message is shown. */
  function Delete(ed: Editing.Editor, index: int, reply: Reply): (r: Editing.Edit)
    ensures r.request == Post(SharedSchedulePath, RemoveAt(ed.schedule, index))
    ensures 0 <= index < |ed.schedule| ==>
      |r.request.body| == |ed.schedule| - 1
      && (forall i :: 0 <= i < index ==> r.request.body[i] == ed.schedule[i])
      && (forall i :: index <= i < |r.request.body| ==> r.request.body[i] == ed.schedule[i + 1])
    ensures !(0 <= index < |ed.schedule|) ==> r.request.body == ed.schedule
    ensures reply == Acknowledged ==> r.editor.schedule == r.request.body && r.editor.message == Editing.SavedMessage
    ensures reply == Failed ==> r.editor.schedule == ed.schedule && r.editor.message == Editing.SaveFailedMessage
  {
    Editing.DeleteEntry(SharedSchedulePath, ed, index, reply)
  }

  /** Two acknowledged deletes of the first entry, the second clicked after
      the first reply has arrived, remove the first two entries. */
  lemma DeleteFirstTwice(ed: Editing.Editor)
    requires |ed.schedule| >= 2
    ensures Delete(Delete(ed, 0, Acknowledged).editor, 0, Acknowledged).editor.schedule == ed.schedule[2..]
  {
    var once := Delete(ed, 0, Acknowledged).editor.schedule;
    assert once == ed.schedule[1..];
    assert RemoveAt(once, 0) == once[1..];
  }

  /** The same two clicks, the second made before the first reply: both
      handlers filter the list of one render, so both requests post the
      list without only its first entry, and the second entry survives. */
  lemma OverlappingDeleteFirstTwice(ed: Editing.Editor, r1: Reply, r2: Reply)
    requires |ed.schedule| >= 2
    ensures Delete(ed, 0, r1).request == Delete(ed, 0, r2).request
    ensures Delete(ed, 0, r2).request.body == ed.schedule[1..]
    ensures ed.schedule[1] in Delete(ed, 0, r2).request.body
  {
    var body := Delete(ed, 0, r2).request.body;
    assert body == ed.schedule[1..];
    assert body[0] == ed.schedule[1];
  }
}
